=== FILE: README.md ===
# Fyyur booking directory — a Dafny model of its core

Fyyur is a small Flask/SQLAlchemy site that lists music venues and artists and
the shows that book an artist at a venue. This project models its core logic
over an immutable in-memory store and proves properties of it:

- **the data** (`records.dfy`, `tables.dfy`). Venue, artist and show records
  are modelled with all their columns. Each table is a sequence of rows in
  scan order. The schema's constraints become the predicate
  `Records.WellFormed`: one primary key per table, and the two foreign keys of
  a show.
- **the venue listing** (`listing.dfy`). `venues()` groups venues by their
  distinct `(city, state)` pairs, in Python's ascending tuple order.
- **name search** (`search.dfy`). `search_venues()` and `search_artists()`
  filter with SQL `ILIKE '%term%'` and build a `count`/`data` response.
- **the detail pages** (`detail.dfy`). `show_venue()` and `show_artist()`
  split a record's shows into past (`start_time < now`) and upcoming
  (otherwise), with a count for each list.
- **the model queries** (`showqueries.dfy`). These are `get_upcoming_shows`,
  `get_past_shows`, `get_shows` and `formatted_shows` in `models.py`. They
  use `>` and `<`, so a show starting exactly at `now` is in neither list.
  The project proves exactly how the two variants relate (`partition.dfy`).
- **the writing handlers** (`mutations.dfy`): edit venue/artist, delete
  venue/artist together with their shows, create show, delete show. Each is
  all-or-nothing. The outcome of `commit` is the parameter `commitOk`; a
  failed commit rolls back to the old store.

Modelling choices:

- The clock, the commit outcome and the id the database gives a new show are
  parameters.
- A missing record or a show whose artist is missing is the error path of the
  handler, modelled with `Option` or an explicit `error` flag.
- Both `edit_*_submission` on a missing id and `delete_show` on a missing id
  report success and change nothing; the model keeps that behaviour.

## Model

| member | source | states |
|---|---|---|
| Tables.Select | app.py:186 | `filter_by(col=id)` keeps exactly the rows whose column equals `id` |
| Tables.Find | app.py:171 | `query.get(id)` yields a row carrying `id`, and yields nothing only when no row carries it |
| Tables.FindUnique | app.py:37 | under the primary key, the row `get` returns for a row's own id is that row |
| Tables.SelectRejectSizes | app.py:352-356 | the shows of a record and the remaining shows together are as many as the table |
| Tables.SelectUniqueSize | app.py:37 | under a primary key, an id selects one row when present and none otherwise |
| Tables.RejectKeepsUnique | app.py:354-356 | deleting rows never breaks a primary key |
| Tables.ReplaceKeepsUnique | app.py:310-322 | overwriting a row with one keeping its id preserves the primary key and the set of ids |
| Tables.FindReplaced | app.py:310-322 | after the overwrite, `get(id)` yields the new row |
| Tables.FindReplaceOther | app.py:310-322 | the overwrite leaves `get` of every other id unchanged |
| Tables.ReplaceIdempotent | app.py:310-322 | overwriting twice with the same row equals overwriting once |
| Tables.SelectAppend | app.py:186 | filtering keeps table order: filtering two runs of rows concatenates the results |
| Tables.SelectAfterReject | app.py:352-356 | once a record's shows are deleted, filtering for that record finds none |
| Tables.FindSomeIffKey | app.py:171 | `get(id)` finds a row exactly when `id` is among the table's ids |
| Tables.Reject | app.py:354-356 | the cascade delete keeps exactly the rows whose column differs from the deleted id, and nothing else |
| Tables.Replace | app.py:310-321 | the in-place update keeps the table's length; every row with the key becomes the new row and every other row stays where it was |
| Tables.PositionsSnoc | app.py:144-145 | appending a row adds its position to the filtered positions exactly when the filter accepts it |
| Records.SummaryOf | app.py:125 | the `{"id", "name"}` entry of a venue, as the listing builds it (and the venue search at app.py:148) |
| Records.ArtistSummaryOf | app.py:408 | the `{"id", "name"}` entry of an artist in the artist search |
| Records.HasVenue | app.py:172 | the `if venue:` test: `Venue.query.get(id)` found a row |
| Records.HasArtist | app.py:432 | the `if artist:` test: `Artist.query.get(id)` found a row |
| Records.GetVenue | app.py:171 | `Venue.query.get(id)` yields a stored venue carrying `id`, and nothing only when no venue carries it |
| Records.GetArtist | app.py:192 | `Artist.query.get(id)` yields a stored artist carrying `id`, and nothing only when no artist carries it |
| Records.ShowsAtVenue | app.py:186 | `filter_by(venue_id=id)` holds exactly the stored shows booked at venue `id` |
| Records.ShowsOfArtist | app.py:445 | `filter_by(artist_id=id)` holds exactly the stored shows of artist `id` |
| Records.WellFormed | models.py:15-24 | the schema's constraints: `id` is a primary key of the show, venue and artist tables (the artist's at models.py:74), and a show's `artist_id` and `venue_id` name an existing artist and venue |
| Listing.LocationOf | app.py:119 | the `(v.city, v.state)` pair of a venue |
| Listing.LocationSet | app.py:119 | `set((v.city, v.state) for v in venues)`: the pairs of all venues |
| Listing.Locations | app.py:119 | `sorted(set(...))` of the venues' `(city, state)` pairs is strictly ascending and holds exactly those pairs |
| Listing.StrLess | app.py:119 | Python's string order: code point by code point, a proper prefix first |
| Listing.LocLess | app.py:119 | Python's tuple order on `(city, state)`: by city, then by state |
| Listing.LocLessIrreflexive | app.py:119 | no location sorts before itself |
| Listing.LocLessTransitive | app.py:119 | the tuple order is transitive |
| Listing.Insert | app.py:119 | inserting a location into a strictly ascending list keeps it strictly ascending and adds exactly that location |
| Listing.StrLessIrreflexive | app.py:119 | Python's string order is irreflexive |
| Listing.StrLessTransitive | app.py:119 | Python's string order is transitive |
| Listing.StrLessTotal | app.py:119 | any two distinct strings are ordered one way or the other |
| Listing.LocLessTotal | app.py:119 | tuple order on `(city, state)` orders any two distinct pairs |
| Listing.SortedListUnique | app.py:119 | two strictly ascending lists with the same elements are equal, so the sorted location list is determined by the set of locations |
| Listing.VenuesAt | app.py:121-126 | an area holds a venue's entry iff the venue's city and state are the area's, and nothing else |
| Listing.AreasFor | app.py:120-127 | one area per location, in the locations' order, each holding exactly the venues at its location |
| Listing.GroupByLocation | app.py:116-127 | no venues give no areas; otherwise the areas are strictly ascending, each is the location of some venue, every venue's location has an area, and each area holds exactly the venues at its location |
| Listing.VenueListedAtOwnLocation | app.py:120-126 | a venue is listed in an area iff the area's city and state are its own |
| Listing.VenueInExactlyOneArea | app.py:120-127 | every venue appears in exactly one area |
| Listing.AreaLocationsDistinct | app.py:119-120 | no two areas share a location |
| Listing.VenuesAtAppend | app.py:121-126 | within an area venues keep their table order |
| Listing.ListingCountsEveryVenueOnce | app.py:116-127 | the listing holds as many entries as there are venues |
| Search.Like | app.py:144 | SQL `LIKE`: `%` matches any run of characters, `_` any one character, every other character itself |
| Search.ILike | app.py:144 | `ILIKE` is `LIKE` after lower-casing both the string and the pattern |
| Search.NameMatches | app.py:144 | the filter `name ILIKE '%term%'` |
| Search.Lower | app.py:144 | lower-casing keeps the length and maps every character through ASCII lower-casing |
| Search.LowerAppend | app.py:144 | lower-casing distributes over concatenation |
| Search.PercentMatchesAll | app.py:144 | the pattern `%` matches every string |
| Search.TrailingPercent | app.py:144 | `t%`, for a wildcard-free `t`, matches exactly the strings starting with `t` |
| Search.LeadingPercent | app.py:144 | `%q` matches exactly the strings with a suffix matching `q` |
| Search.LikeIsSubstring | app.py:144 | `%t%`, for a wildcard-free `t`, matches exactly the strings containing `t` |
| Search.NameMatchesIsCaseInsensitiveSubstring | app.py:144 | the filter `name ILIKE '%term%'` is case-insensitive substring search for a term without `%` or `_` |
| Search.EmptyTermMatchesAll | app.py:141-144 | the default empty search term matches every name |
| Search.MatchingVenues | app.py:144-149 | a venue is in the result iff its name matches, and every entry comes from a matching venue |
| Search.VenueFilter | app.py:144 | the ILIKE filter as a test on one venue row |
| Search.MatchingVenuesAppend | app.py:144-149 | the results keep table order: filtering two runs of rows concatenates their results |
| Search.MatchingVenuesCount | app.py:144-145 | the results hold one entry per matching venue row: as many as there are matching rows |
| Search.MatchingArtists | app.py:404-409 | an artist is in the result iff its name matches, and every entry comes from a matching artist |
| Search.ArtistFilter | app.py:404 | the ILIKE filter as a test on one artist row |
| Search.MatchingArtistsAppend | app.py:404-409 | the results keep table order |
| Search.MatchingArtistsCount | app.py:404-405 | the results hold one entry per matching artist row |
| Search.SearchVenues | app.py:137-150 | `count` is the number of matching venue rows and the number of entries; a venue is listed iff its name matches; with no match `count` is 0 and there is no `data` |
| Search.SearchArtists | app.py:397-410 | `count` is the number of matching artist rows and the number of entries; an artist is listed iff its name matches; with no match `count` is 0 and there is no `data` |
| Search.EmptyTermListsEveryVenue | app.py:141-150 | an empty search lists every venue once |
| Search.AllMatchKeepsAll | app.py:144-149 | when every name matches, every venue is listed |
| Search.EmptyTermListsEveryArtist | app.py:401-410 | an empty search lists every artist once |
| Search.AllMatchKeepsAllArtists | app.py:404-409 | when every name matches, every artist is listed |
| Partition.Before | app.py:200 | the past shows are exactly those starting before `now` |
| Partition.NotBefore | app.py:200-205 | the `else` branch takes exactly the shows starting at or after `now` |
| Partition.After | models.py:47 | the model's upcoming filter keeps exactly the shows starting after `now` |
| Partition.AtInstant | models.py:47 | the shows starting exactly at `now` |
| Partition.BeforeSnoc | app.py:200-202 | appending a show appends it to the past list exactly when it starts before `now` |
| Partition.NotBeforeSnoc | app.py:203-205 | appending a show appends it to the upcoming list exactly when it does not start before `now` |
| Partition.PastUpcomingPartition | app.py:200-205 | the detail pages' split is a partition: each show is in exactly one list and the sizes add up to the total |
| Partition.StrictSplitSizes | models.py:44-62 | past, upcoming and the shows at `now` together are all the shows |
| Partition.NoneAtInstant | models.py:47 | when no show starts at `now`, the list of shows at `now` is empty |
| Partition.StrictSplitCoverage | models.py:44-62 | the model's past and upcoming lists are disjoint, together at most all the shows, and all of them iff none starts at `now` |
| Partition.UpcomingVariants | models.py:44-48 | the page's upcoming list is the model's plus the shows at `now`; the two are equal when none starts at `now` |
| Detail.ArtistEvent | app.py:193-198 | the venue page's `show_info`: the artist's id, name and image link, and the show's start time |
| Detail.VenueEvent | app.py:452-457 | the artist page's `show_info`: the page artist's id and name, the show's venue's image link, and the start time |
| Detail.VenueEntry | app.py:192-198 | the venue page entry of a show: its artist looked up with `Artist.query.get` and turned into a `show_info` |
| Detail.ArtistEntry | app.py:451-457 | the artist page entry of a show: its venue looked up with `Venue.query.get` and its image put into the `show_info` |
| Detail.VenuePageEvents | app.py:192-198 | one entry per show, in order, each carrying the show's artist id, name and image |
| Detail.VenuePageShown | app.py:171-198 | the venue page renders iff the venue exists and every show's artist lookup succeeds; `artist.id` on a missing artist raises |
| Detail.ArtistPageEvents | app.py:451-457 | one entry per show, in order, each carrying the page's artist and the show's venue image |
| Detail.ArtistPageShown | app.py:431-457 | the artist page renders iff the artist exists and every show's venue lookup succeeds |
| Detail.ShowVenue | app.py:165-215 | a page exists iff the venue exists and every show's artist resolves; it holds the venue itself; with no shows it has no past/upcoming keys; otherwise past and upcoming hold the entries of the shows before and not before `now`, each count is its list's length, and the counts add up to the number of shows |
| Detail.SplitVenueShows | app.py:186-205 | the loop fails iff some show's artist is missing; otherwise it yields the past and upcoming entries and counts adding up to the number of shows |
| Detail.VenueSplit | app.py:191-205 | the two lists the loop has built after a run of shows; together they hold one entry per show |
| Detail.VenueSplitSnoc | app.py:191-205 | one loop iteration appends the show's entry to exactly one list |
| Detail.VenueSplitMeaning | app.py:191-205 | the lists the loop builds are the entries of the past shows and of the upcoming shows, in order |
| Detail.VenueStep | app.py:200-205 | a new show's entry joins the end of exactly one list |
| Detail.ShowArtist | app.py:425-474 | the mirror of `ShowVenue` for artist pages, each entry carrying the show's venue image |
| Detail.SplitArtistShows | app.py:445-464 | the artist page loop fails iff some show's venue is missing; otherwise it yields the two lists and their counts |
| Detail.ArtistSplit | app.py:450-464 | the two lists the artist page loop has built; together they hold one entry per show |
| Detail.ArtistSplitSnoc | app.py:450-464 | one loop iteration appends the show's entry to exactly one list |
| Detail.ArtistSplitMeaning | app.py:450-464 | the artist page lists are the entries of the past and upcoming shows, in order |
| Detail.ArtistStep | app.py:459-464 | a new show's entry joins the end of exactly one list |
| Detail.VenuePageAvailable | app.py:76 | with the foreign keys in force the venue page renders exactly when the venue exists |
| Detail.ArtistPageAvailable | app.py:77 | with the foreign keys in force the artist page renders exactly when the artist exists |
| ShowQueries.Join | models.py:40-50 | the joined `(Artist, Show)` rows are never more than the shows |
| ShowQueries.RowOf | models.py:40-50 | the join row of a show: the show with its own artist and venue |
| ShowQueries.JoinSnoc | models.py:41-46 | a show whose artist and venue exist adds its row at the end of the join |
| ShowQueries.JoinRowsFrom | models.py:41-46 | every row of the join is an input show with its own artist and venue |
| ShowQueries.JoinKeepsEveryShow | models.py:41-46 | when every show's keys resolve, the join keeps one row per show, in order |
| ShowQueries.FormatShow | models.py:122-133 | one `event`: the artist's id and name, the start time, and the venue's image when `venue_img`, else the artist's |
| ShowQueries.FormattedShows | models.py:120-135 | one event per pair, in order, with the pair's artist id and name and the show's start time, and exactly one image: the venue's when `venue_img`, else the artist's |
| ShowQueries.FormattedShowsAppend | models.py:120-135 | formatting maps pairs one by one: formatting two runs concatenates their events |
| ShowQueries.VenueShows | models.py:67-68 | `get_shows` returns exactly the shows with the venue's id |
| ShowQueries.VenueUpcomingShows | models.py:39-51 | events only for shows after `now`, at most one per such show, each with the artist's image |
| ShowQueries.VenuePastShows | models.py:53-65 | events only for shows before `now`, at most one per such show, each with the artist's image |
| ShowQueries.VenueFormatMatchesPage | models.py:120-135 | when every key resolves, the formatted joined shows are exactly the venue page's entries |
| ShowQueries.VenueQueriesExact | models.py:39-65 | under the schema's constraints, the venue's past and upcoming events are exactly one entry per show before and after `now`, in order |
| ShowQueries.VenueVariantsAgree | models.py:39-65 | the venue model and the venue page agree on past shows, and on upcoming shows iff none starts at `now` |
| ShowQueries.VenueQueryCounts | models.py:39-68 | past plus upcoming is at most `get_shows`, with equality iff no show starts at `now` |
| ShowQueries.ArtistShows | models.py:116-117 | `get_shows` returns exactly the shows with the artist's id |
| ShowQueries.ArtistUpcomingShows | models.py:88-100 | events only for shows after `now`, each with the venue's image |
| ShowQueries.ArtistPastShows | models.py:102-114 | events only for shows before `now`, each with the venue's image |
| ShowQueries.ArtistFormatMatchesPage | models.py:120-135 | when every key resolves to this artist, the formatted joined shows are exactly the artist page's entries |
| ShowQueries.ArtistQueriesExact | models.py:88-114 | under the schema's constraints, the artist's past and upcoming events are exactly one entry per show before and after `now` |
| ShowQueries.ArtistVariantsAgree | models.py:88-114 | the artist model and the artist page agree on past shows, and on upcoming shows iff none starts at `now` |
| ShowQueries.ArtistQueryCounts | models.py:88-117 | past plus upcoming is at most `get_shows`, with equality iff no show starts at `now` |
| Mutations.Ticked | app.py:308 | a checkbox counts as ticked when its key is present with a non-empty value |
| Mutations.EditedVenue | app.py:308-321 | the edited venue keeps its id and takes every other column from the form, `website` from `website_link` and `seeking_talent` from the checkbox |
| Mutations.EditedArtist | app.py:566-578 | the edited artist keeps its id and takes every other column from the form, `website` from `website_link` and `seeking_venue` from the checkbox |
| Mutations.GetShow | app.py:721 | `Show.query.get(id)` yields a stored show carrying `id`, and nothing only when no show carries it |
| Mutations.EditVenue | app.py:302-334 | without genres nothing runs; a missing venue changes nothing and reports no error; a failed commit changes nothing and reports an error; otherwise `get(id)` yields the venue rebuilt from the form with its id kept, the venue table keeps its length with only that venue's row changed in place, and every artist and every show are unchanged |
| Mutations.EditArtist | app.py:560-592 | the same over the artist table |
| Mutations.EditVenueIdempotent | app.py:310-322 | submitting the same venue form twice leaves the store as submitting it once |
| Mutations.EditArtistIdempotent | app.py:568-579 | submitting the same artist form twice leaves the store as submitting it once |
| Mutations.EditVenueKeepsWellFormed | app.py:310-322 | a venue edit keeps every primary and foreign key intact |
| Mutations.EditArtistKeepsWellFormed | app.py:568-579 | an artist edit keeps every primary and foreign key intact |
| Mutations.DeleteVenue | app.py:340-367 | the delete fails, changing nothing, iff the venue is missing or the commit fails; otherwise it removes exactly the venue and exactly its shows, leaves the artists alone and reports the venue's name |
| Mutations.DeleteArtist | app.py:600-627 | the same for an artist and its shows, leaving the venues alone |
| Mutations.DeleteVenueKeepsWellFormed | app.py:348-360 | deleting a venue with its shows leaves no dangling reference and keeps every key |
| Mutations.DeleteArtistKeepsWellFormed | app.py:608-620 | deleting an artist with its shows leaves no dangling reference and keeps every key |
| Mutations.DeleteVenueCounts | app.py:348-360 | a successful delete removes one venue row and exactly the venue's shows; afterwards neither the venue nor any show at it remains |
| Mutations.DeleteArtistCounts | app.py:608-620 | a successful delete removes one artist row and exactly the artist's shows |
| Mutations.CreateShow | app.py:677-701 | the insert persists iff both foreign keys resolve, the new id is unused and the commit succeeds; it appends exactly the new show; otherwise nothing changes |
| Mutations.CreateShowKeepsWellFormed | app.py:685-692 | inserting a show keeps every primary and foreign key intact |
| Mutations.CreatedShowListedLast | app.py:685-692 | a created show becomes the last show of its venue and of its artist |
| Mutations.DeleteShow | app.py:712-733 | a missing show changes nothing and reports no error; a failed commit changes nothing and reports an error; otherwise only that show is removed and it can no longer be found |
| Mutations.DeleteShowKeepsWellFormed | app.py:721-724 | deleting a show keeps every key and reference, and removes exactly one row |

## Left out

- Flask routing, templates, `flash` texts and redirects are left out: they are presentation. The model keeps only what they depend on, the error flag and the deleted record's name.
- `format_datetime` is left out: it wraps date parsing and locale formatting from foreign libraries.
- `str(show.start_time)` is not modelled: an event carries the timestamp itself, not its string form.
- The clock is a parameter. The detail handlers call `datetime.now()` once per show inside the loop; the model uses one instant `now` for the whole page. Likewise `get_upcoming_shows` and `get_past_shows` each read the clock themselves (models.py:47 and 61); the lemmas that compare the two queries, or compare them with the pages (`VenueVariantsAgree`, `VenueQueryCounts` and their artist mirrors), evaluate them all at one shared `now`.
- ILIKE is modelled as LIKE with `%` and `_` after ASCII lower-casing. PostgreSQL's escape character and locale-dependent case folding of non-ASCII letters are not modelled.
- SQL gives no row order without `ORDER BY`. The model fixes the order to the table's scan order, both for filters and for the joins.
- The forms' validators are not modelled: the handlers never call `validate()`. Form fields are typed values. An edit form's keys other than `genres` are assumed present. A missing one is not modelled: inside the `try` the form is read only when the record exists, but the `flash` after it reads `name` in every case (app.py:332-334 and 589-591), so a missing `name` makes the handler fail whether or not the record exists.
- The forms send strings, which the database parses into the start time and the ids. A parse failure rolls back like any other failed commit, so it is folded into `commitOk`.
- Column length limits and NULL columns are not modelled: every column holds a value of its type.
- The database's id sequence is not modelled: the new show's id is the parameter `newId`. An id already in use fails the insert.
- Session and ORM mechanics are reduced to a committed new store or the old one.
- `create_venue_submission`, `create_artist_submission`, the edit-form `GET` handlers, `artists()`, `shows()` and `index()` are not modelled: they lie outside the core.
- The delete routes take the id as a string, which SQLAlchemy converts; the model takes an `Id`.
- The handlers' generic `except` around queries in `venues()` and the search handlers is not modelled: the model's queries cannot raise.
- Detail.VenueEntry: for a show whose artist is missing it returns a placeholder entry. No page ever contains it, because the handler fails on such a show.
- Detail.ArtistEntry: the same placeholder for a show whose venue is missing.
- ShowQueries.Join: its own contract only bounds the length. What the rows are is stated by `JoinRowsFrom` and `JoinKeepsEveryShow`.
- ShowQueries.VenueUpcomingShows: its own contract bounds the list and says which shows it draws from. The exact list, under the schema's constraints, is stated by `VenueQueriesExact`.
- ShowQueries.VenuePastShows: as for `VenueUpcomingShows`; exactness is stated by `VenueQueriesExact`.
- ShowQueries.ArtistUpcomingShows: exactness is stated by `ArtistQueriesExact`.
- ShowQueries.ArtistPastShows: exactness is stated by `ArtistQueriesExact`.
- Search.MatchingVenues: its own contract states membership both ways. That each matching row yields exactly one entry, in table order, is stated by `MatchingVenuesCount` and `MatchingVenuesAppend`, and `SearchVenues` carries the count.
- Search.MatchingArtists: the same; see `MatchingArtistsCount`, `MatchingArtistsAppend` and `SearchArtists`.

=== FILE: detail.dfy ===
/**
 * The venue and artist detail pages (`show_venue`, `show_artist`): the record's
 * own fields, and, when it has any shows, those shows split into past and
 * upcoming against `now` with a count for each list.
 */
module Detail {
  import opened Tables
  import opened Records
  import opened Partition

  /** The past/upcoming keys of a detail page; absent altogether when there are no shows. */
  datatype ShowSplit = ShowSplit(
    pastShows: seq<Event>,
    upcomingShows: seq<Event>,
    pastCount: nat,
    upcomingCount: nat)

  datatype VenuePage = VenuePage(venue: Venue, shows: Option<ShowSplit>)

  datatype ArtistPage = ArtistPage(artist: Artist, shows: Option<ShowSplit>)

  /** A venue page entry: the show's artist, with the artist's image. */
  function ArtistEvent(a: Artist, s: Show): Event
  {
    Event(a.id, a.name, s.startTime, ArtistImage(a.imageLink))
  }

  /** An artist page entry: the page's artist, with the show's venue's image. */
  function VenueEvent(a: Artist, v: Venue, s: Show): Event
  {
    Event(a.id, a.name, s.startTime, VenueImage(v.imageLink))
  }

  /** Every show's artist can be looked up. */
  predicate ArtistsResolve(st: Store, shows: seq<Show>)
  {
    forall s :: s in shows ==> HasArtist(st, s.artistId)
  }

  /** Every show's venue can be looked up. */
  predicate VenuesResolve(st: Store, shows: seq<Show>)
  {
    forall s :: s in shows ==> HasVenue(st, s.venueId)
  }

  /** When `show_venue` renders a page: the venue exists and so does every artist it books. */
  predicate VenuePageShown(st: Store, venueId: Id)
  {
    HasVenue(st, venueId) && ArtistsResolve(st, ShowsAtVenue(st, venueId))
  }

  /** When `show_artist` renders a page: the artist exists and so does every venue it plays. */
  predicate ArtistPageShown(st: Store, artistId: Id)
  {
    HasArtist(st, artistId) && VenuesResolve(st, ShowsOfArtist(st, artistId))
  }

  /**
   * The venue page entry of a show: its artist's id, name and image. Only used
   * for shows whose artist exists; the handler fails on any other.
   */
  function VenueEntry(st: Store, s: Show): Event
  {
    match GetArtist(st, s.artistId)
    case Some(a) => ArtistEvent(a, s)
    case None => Event(s.artistId, "", s.startTime, ArtistImage(""))
  }

  /** The artist page entry of a show for artist `a`: the show's venue's image. */
  function ArtistEntry(st: Store, a: Artist, s: Show): Event
  {
    match GetVenue(st, s.venueId)
    case Some(v) => VenueEvent(a, v, s)
    case None => Event(a.id, a.name, s.startTime, VenueImage(""))
  }

  /** The venue page entries of `shows`, one per show and in order. */
  function VenuePageEvents(st: Store, shows: seq<Show>): (r: seq<Event>)
    ensures |r| == |shows|
    ensures forall i :: 0 <= i < |shows| ==> r[i] == VenueEntry(st, shows[i])
  {
    if |shows| == 0 then []
    else VenuePageEvents(st, shows[..|shows| - 1]) + [VenueEntry(st, shows[|shows| - 1])]
  }

  /** The artist page entries of `shows` for artist `a`, one per show and in order. */
  function ArtistPageEvents(st: Store, a: Artist, shows: seq<Show>): (r: seq<Event>)
    ensures |r| == |shows|
    ensures forall i :: 0 <= i < |shows| ==> r[i] == ArtistEntry(st, a, shows[i])
  {
    if |shows| == 0 then []
    else ArtistPageEvents(st, a, shows[..|shows| - 1]) + [ArtistEntry(st, a, shows[|shows| - 1])]
  }

  /** The split a detail page shows for `all`: past/upcoming against `now`, each with its count. */
  predicate SplitOf(split: ShowSplit, past: seq<Event>, upcoming: seq<Event>, total: nat)
  {
    && split.pastShows == past
    && split.upcomingShows == upcoming
    && split.pastCount == |past|
    && split.upcomingCount == |upcoming|
    && split.pastCount + split.upcomingCount == total
  }

  /**
   * `show_venue(venue_id)` at instant `now`. `None` is the error path: no such
   * venue (the handler's empty `data`), or a show whose artist cannot be found
   * (the attribute error the handler catches). A show is past iff it starts
   * before `now`, otherwise upcoming; each count is its list's length and the
   * two add up to the venue's number of shows. A venue without shows has no
   * past/upcoming keys at all.
   */
  method ShowVenue(st: Store, venueId: Id, now: Timestamp) returns (r: Option<VenuePage>)
    ensures r.Some? <==> VenuePageShown(st, venueId)
    ensures r.Some? ==> GetVenue(st, venueId) == Some(r.value.venue)
    ensures r.Some? ==> (r.value.shows.None? <==> |ShowsAtVenue(st, venueId)| == 0)
    ensures r.Some? && r.value.shows.Some? ==>
      var all := ShowsAtVenue(st, venueId);
      SplitOf(r.value.shows.value, VenuePageEvents(st, Before(all, now)),
              VenuePageEvents(st, NotBefore(all, now)), |all|)
  {
    var found := GetVenue(st, venueId);
    if found.None? {
      return None;
    }
    var all := ShowsAtVenue(st, venueId);
    if |all| == 0 {
      return Some(VenuePage(found.value, None));
    }
    var split := SplitVenueShows(st, all, now);
    if split.None? {
      return None;
    }
    return Some(VenuePage(found.value, split));
  }

  /**
   * The two lists the `show_venue` loop has built after visiting `shows`:
   * each show's entry appended to the past list when it starts before `now`,
   * to the upcoming list otherwise.
   */
  function VenueSplit(st: Store, shows: seq<Show>, now: Timestamp): (r: (seq<Event>, seq<Event>))
    ensures |r.0| + |r.1| == |shows|
  {
    if |shows| == 0 then ([], [])
    else
      var s := shows[|shows| - 1];
      var (past, upcoming) := VenueSplit(st, shows[..|shows| - 1], now);
      if s.startTime < now then (past + [VenueEntry(st, s)], upcoming)
      else (past, upcoming + [VenueEntry(st, s)])
  }

  lemma VenueSplitSnoc(st: Store, done: seq<Show>, s: Show, now: Timestamp)
    ensures VenueSplit(st, done + [s], now) ==
      var (past, upcoming) := VenueSplit(st, done, now);
      if s.startTime < now then (past + [VenueEntry(st, s)], upcoming)
      else (past, upcoming + [VenueEntry(st, s)])
  {
    assert (done + [s])[..|done|] == done;
  }

  /** The loop's lists are the entries of the past shows and of the upcoming shows, in order. */
  lemma {:induction false} VenueSplitMeaning(st: Store, shows: seq<Show>, now: Timestamp)
    ensures VenueSplit(st, shows, now) ==
      (VenuePageEvents(st, Before(shows, now)), VenuePageEvents(st, NotBefore(shows, now)))
  {
    if |shows| > 0 {
      var init, s := shows[..|shows| - 1], shows[|shows| - 1];
      assert shows == init + [s];
      VenueSplitMeaning(st, init, now);
      VenueStep(st, init, s, now);
    }
  }

  /**
   * The loop of `show_venue` over the venue's shows: each show's artist looked
   * up and its entry appended to the past or upcoming list; `None` as soon as
   * an artist is missing.
   */
  method SplitVenueShows(st: Store, all: seq<Show>, now: Timestamp) returns (r: Option<ShowSplit>)
    ensures r.Some? <==> ArtistsResolve(st, all)
    ensures r.Some? ==>
      SplitOf(r.value, VenuePageEvents(st, Before(all, now)), VenuePageEvents(st, NotBefore(all, now)), |all|)
  {
    var past: seq<Event> := [];
    var upcoming: seq<Event> := [];
    var pastCount, upcomingCount := 0, 0;
    var i := 0;
    while i < |all|
      invariant 0 <= i <= |all|
      invariant ArtistsResolve(st, all[..i])
      invariant (past, upcoming) == VenueSplit(st, all[..i], now)
      invariant pastCount == |past| && upcomingCount == |upcoming|
      invariant pastCount + upcomingCount == i
    {
      var show := all[i];
      var artist := GetArtist(st, show.artistId);
      if artist.None? {
        assert show in all;
        return None;
      }
      var info := ArtistEvent(artist.value, show);
      PrefixSnoc(all, i);
      VenueSplitSnoc(st, all[..i], show, now);
      if show.startTime < now {
        past := past + [info];
        pastCount := pastCount + 1;
      } else {
        upcoming := upcoming + [info];
        upcomingCount := upcomingCount + 1;
      }
      i := i + 1;
    }
    assert all[..i] == all;
    VenueSplitMeaning(st, all, now);
    return Some(ShowSplit(past, upcoming, pastCount, upcomingCount));
  }

  /**
   * `show_artist(artist_id)` at instant `now`: the mirror of `ShowVenue`, each
   * entry naming the page's artist and carrying the show's venue's image.
   */
  method ShowArtist(st: Store, artistId: Id, now: Timestamp) returns (r: Option<ArtistPage>)
    ensures r.Some? <==> ArtistPageShown(st, artistId)
    ensures r.Some? ==> GetArtist(st, artistId) == Some(r.value.artist)
    ensures r.Some? ==> (r.value.shows.None? <==> |ShowsOfArtist(st, artistId)| == 0)
    ensures r.Some? && r.value.shows.Some? ==>
      var all, a := ShowsOfArtist(st, artistId), r.value.artist;
      SplitOf(r.value.shows.value, ArtistPageEvents(st, a, Before(all, now)),
              ArtistPageEvents(st, a, NotBefore(all, now)), |all|)
  {
    var found := GetArtist(st, artistId);
    if found.None? {
      return None;
    }
    var all := ShowsOfArtist(st, artistId);
    if |all| == 0 {
      return Some(ArtistPage(found.value, None));
    }
    var split := SplitArtistShows(st, found.value, all, now);
    if split.None? {
      return None;
    }
    return Some(ArtistPage(found.value, split));
  }

  /** The two lists the `show_artist` loop has built after visiting `shows`, for artist `a`. */
  function ArtistSplit(st: Store, a: Artist, shows: seq<Show>, now: Timestamp): (r: (seq<Event>, seq<Event>))
    ensures |r.0| + |r.1| == |shows|
  {
    if |shows| == 0 then ([], [])
    else
      var s := shows[|shows| - 1];
      var (past, upcoming) := ArtistSplit(st, a, shows[..|shows| - 1], now);
      if s.startTime < now then (past + [ArtistEntry(st, a, s)], upcoming)
      else (past, upcoming + [ArtistEntry(st, a, s)])
  }

  lemma ArtistSplitSnoc(st: Store, a: Artist, done: seq<Show>, s: Show, now: Timestamp)
    ensures ArtistSplit(st, a, done + [s], now) ==
      var (past, upcoming) := ArtistSplit(st, a, done, now);
      if s.startTime < now then (past + [ArtistEntry(st, a, s)], upcoming)
      else (past, upcoming + [ArtistEntry(st, a, s)])
  {
    assert (done + [s])[..|done|] == done;
  }

  /** The loop's lists are the entries of the past shows and of the upcoming shows, in order. */
  lemma {:induction false} ArtistSplitMeaning(st: Store, a: Artist, shows: seq<Show>, now: Timestamp)
    ensures ArtistSplit(st, a, shows, now) ==
      (ArtistPageEvents(st, a, Before(shows, now)), ArtistPageEvents(st, a, NotBefore(shows, now)))
  {
    if |shows| > 0 {
      var init, s := shows[..|shows| - 1], shows[|shows| - 1];
      assert shows == init + [s];
      ArtistSplitMeaning(st, a, init, now);
      ArtistStep(st, a, init, s, now);
    }
  }

  /** The loop of `show_artist`: each show's venue looked up; `None` as soon as one is missing. */
  method SplitArtistShows(st: Store, artist: Artist, all: seq<Show>, now: Timestamp) returns (r: Option<ShowSplit>)
    ensures r.Some? <==> VenuesResolve(st, all)
    ensures r.Some? ==>
      SplitOf(r.value, ArtistPageEvents(st, artist, Before(all, now)),
              ArtistPageEvents(st, artist, NotBefore(all, now)), |all|)
  {
    var past: seq<Event> := [];
    var upcoming: seq<Event> := [];
    var pastCount, upcomingCount := 0, 0;
    var i := 0;
    while i < |all|
      invariant 0 <= i <= |all|
      invariant VenuesResolve(st, all[..i])
      invariant (past, upcoming) == ArtistSplit(st, artist, all[..i], now)
      invariant pastCount == |past| && upcomingCount == |upcoming|
      invariant pastCount + upcomingCount == i
    {
      var show := all[i];
      var venue := GetVenue(st, show.venueId);
      if venue.None? {
        assert show in all;
        return None;
      }
      var info := VenueEvent(artist, venue.value, show);
      PrefixSnoc(all, i);
      ArtistSplitSnoc(st, artist, all[..i], show, now);
      if show.startTime < now {
        past := past + [info];
        pastCount := pastCount + 1;
      } else {
        upcoming := upcoming + [info];
        upcomingCount := upcomingCount + 1;
      }
      i := i + 1;
    }
    assert all[..i] == all;
    ArtistSplitMeaning(st, artist, all, now);
    return Some(ShowSplit(past, upcoming, pastCount, upcomingCount));
  }

  /** One iteration of the venue page loop: the new show joins exactly one list, at its end. */
  lemma VenueStep(st: Store, done: seq<Show>, s: Show, now: Timestamp)
    ensures s.startTime < now ==>
      && VenuePageEvents(st, Before(done + [s], now)) == VenuePageEvents(st, Before(done, now)) + [VenueEntry(st, s)]
      && VenuePageEvents(st, NotBefore(done + [s], now)) == VenuePageEvents(st, NotBefore(done, now))
    ensures s.startTime >= now ==>
      && VenuePageEvents(st, Before(done + [s], now)) == VenuePageEvents(st, Before(done, now))
      && VenuePageEvents(st, NotBefore(done + [s], now)) == VenuePageEvents(st, NotBefore(done, now)) + [VenueEntry(st, s)]
  {
    BeforeSnoc(done, s, now);
    NotBeforeSnoc(done, s, now);
    var b, nb := Before(done, now), NotBefore(done, now);
    assert (b + [s])[..|b|] == b;
    assert (nb + [s])[..|nb|] == nb;
  }

  /** One iteration of the artist page loop. */
  lemma ArtistStep(st: Store, a: Artist, done: seq<Show>, s: Show, now: Timestamp)
    ensures s.startTime < now ==>
      && ArtistPageEvents(st, a, Before(done + [s], now)) == ArtistPageEvents(st, a, Before(done, now)) + [ArtistEntry(st, a, s)]
      && ArtistPageEvents(st, a, NotBefore(done + [s], now)) == ArtistPageEvents(st, a, NotBefore(done, now))
    ensures s.startTime >= now ==>
      && ArtistPageEvents(st, a, Before(done + [s], now)) == ArtistPageEvents(st, a, Before(done, now))
      && ArtistPageEvents(st, a, NotBefore(done + [s], now)) == ArtistPageEvents(st, a, NotBefore(done, now)) + [ArtistEntry(st, a, s)]
  {
    BeforeSnoc(done, s, now);
    NotBeforeSnoc(done, s, now);
    var b, nb := Before(done, now), NotBefore(done, now);
    assert (b + [s])[..|b|] == b;
    assert (nb + [s])[..|nb|] == nb;
  }

  /** In a store satisfying its foreign keys the venue page fails exactly when the venue is missing. */
  lemma VenuePageAvailable(st: Store, venueId: Id)
    requires WellFormed(st)
    ensures VenuePageShown(st, venueId) <==> HasVenue(st, venueId)
  {
  }

  /** In a store satisfying its foreign keys the artist page fails exactly when the artist is missing. */
  lemma ArtistPageAvailable(st: Store, artistId: Id)
    requires WellFormed(st)
    ensures ArtistPageShown(st, artistId) <==> HasArtist(st, artistId)
  {
  }
}

=== FILE: listing.dfy ===
/**
 * The venue listing page: venues grouped by their (city, state) location, one
 * group per distinct location, groups in ascending order of location.
 */
module Listing {
  import opened Tables
  import opened Records

  datatype Location = Location(city: string, state: string)

  /** One entry of the listing: a location and the venues found there. */
  datatype Area = Area(city: string, state: string, venues: seq<Summary>)

  function LocationOf(v: Venue): Location
  {
    Location(v.city, v.state)
  }

  function AreaLocation(a: Area): Location
  {
    Location(a.city, a.state)
  }

  /** `set((v.city, v.state) for v in venues)`. */
  function LocationSet(vs: seq<Venue>): set<Location>
  {
    set v | v in vs :: LocationOf(v)
  }

  // ---------------------------------------------------------------------------
  // Python's ordering of strings and of (city, state) tuples
  // ---------------------------------------------------------------------------

  /** `a < b` on Python strings: lexicographic by code point, a proper prefix first. */
  predicate StrLess(a: string, b: string)
  {
    if |a| == 0 then |b| > 0
    else if |b| == 0 then false
    else if a[0] != b[0] then a[0] < b[0]
    else StrLess(a[1..], b[1..])
  }

  /** `(c1, s1) < (c2, s2)` on Python tuples: by city, then by state. */
  predicate LocLess(x: Location, y: Location)
  {
    StrLess(x.city, y.city) || (x.city == y.city && StrLess(x.state, y.state))
  }

  lemma {:induction false} StrLessIrreflexive(a: string)
    ensures !StrLess(a, a)
  {
    if |a| > 0 {
      StrLessIrreflexive(a[1..]);
    }
  }

  lemma {:induction false} StrLessTransitive(a: string, b: string, c: string)
    requires StrLess(a, b) && StrLess(b, c)
    ensures StrLess(a, c)
  {
    if |a| > 0 && a[0] == b[0] && b[0] == c[0] {
      StrLessTransitive(a[1..], b[1..], c[1..]);
    }
  }

  lemma {:induction false} StrLessTotal(a: string, b: string)
    requires a != b
    ensures StrLess(a, b) || StrLess(b, a)
  {
    if |a| > 0 && |b| > 0 && a[0] == b[0] {
      assert a == [a[0]] + a[1..] && b == [b[0]] + b[1..];
      StrLessTotal(a[1..], b[1..]);
    }
  }

  lemma LocLessIrreflexive(x: Location)
    ensures !LocLess(x, x)
  {
    StrLessIrreflexive(x.city);
    StrLessIrreflexive(x.state);
  }

  lemma LocLessTransitive(x: Location, y: Location, z: Location)
    requires LocLess(x, y) && LocLess(y, z)
    ensures LocLess(x, z)
  {
    if StrLess(x.city, y.city) && StrLess(y.city, z.city) {
      StrLessTransitive(x.city, y.city, z.city);
    } else if x.city == y.city && y.city == z.city {
      StrLessTransitive(x.state, y.state, z.state);
    }
  }

  lemma LocLessTotal(x: Location, y: Location)
    requires x != y
    ensures LocLess(x, y) || LocLess(y, x)
  {
    if x.city != y.city {
      StrLessTotal(x.city, y.city);
    } else {
      StrLessTotal(x.state, y.state);
    }
  }

  /** Strictly ascending, hence free of duplicates. */
  predicate StrictlySorted(ls: seq<Location>)
  {
    forall i, j :: 0 <= i < j < |ls| ==> LocLess(ls[i], ls[j])
  }

  // ---------------------------------------------------------------------------
  // sorted(set(...)) of the venues' locations
  // ---------------------------------------------------------------------------

  /** Adds `l` to a strictly sorted list, keeping it strictly sorted. */
  function Insert(l: Location, ls: seq<Location>): (r: seq<Location>)
    requires StrictlySorted(ls)
    ensures StrictlySorted(r)
    ensures forall x :: x in r <==> x in ls || x == l
  {
    if |ls| == 0 then [l]
    else if l == ls[0] then ls
    else if LocLess(l, ls[0]) then
      assert forall j :: 0 <= j < |ls| ==> LocLess(l, ls[j]) by {
        forall j | 0 <= j < |ls| ensures LocLess(l, ls[j]) {
          if j > 0 {
            LocLessTransitive(l, ls[0], ls[j]);
          }
        }
      }
      [l] + ls
    else
      var rest := Insert(l, ls[1..]);
      assert forall x :: x in rest ==> LocLess(ls[0], x) by {
        LocLessTotal(l, ls[0]);
        forall x | x in rest ensures LocLess(ls[0], x) {
          if x != l {
            var j :| 0 <= j < |ls[1..]| && ls[1..][j] == x;
            assert ls[j + 1] == x;
          }
        }
      }
      [ls[0]] + rest
  }

  /**
   * The distinct locations of the venues in ascending order:
   * `sorted(set((v.city, v.state) for v in venues))`.
   */
  function Locations(vs: seq<Venue>): (r: seq<Location>)
    ensures StrictlySorted(r)
    ensures forall l :: l in r <==> l in LocationSet(vs)
  {
    if |vs| == 0 then []
    else
      var init, last := vs[..|vs| - 1], vs[|vs| - 1];
      assert LocationSet(vs) == LocationSet(init) + {LocationOf(last)} by {
        assert vs == init + [last];
      }
      Insert(LocationOf(last), Locations(init))
  }

  /**
   * A strictly sorted list is determined by its elements, so `Locations` is THE
   * ascending list of the distinct locations, whatever algorithm builds it.
   */
  lemma {:induction false} SortedListUnique(a: seq<Location>, b: seq<Location>)
    requires StrictlySorted(a) && StrictlySorted(b)
    requires forall x :: x in a <==> x in b
    ensures a == b
  {
    if |a| == 0 {
      if |b| > 0 {
        HeadIsElement(b);
        assert false;
      }
    } else if |b| == 0 {
      HeadIsElement(a);
      assert false;
    } else {
      assert a[0] == b[0] by {
        if a[0] != b[0] {
          // each head lies below the other's, putting a[0] below itself
          HeadIsLeast(a, b[0]);
          HeadIsLeast(b, a[0]);
          LocLessIrreflexive(a[0]);
          LocLessTransitive(a[0], b[0], a[0]);
          assert false;
        }
      }
      forall x ensures x in a[1..] <==> x in b[1..] {
        TailElements(a, x);
        TailElements(b, x);
      }
      SortedListUnique(a[1..], b[1..]);
      assert a == [a[0]] + a[1..] && b == [b[0]] + b[1..];
    }
  }

  /** The head of a strictly sorted list lies below every other element. */
  lemma HeadIsLeast(a: seq<Location>, x: Location)
    requires StrictlySorted(a) && |a| > 0
    requires x in a && x != a[0]
    ensures LocLess(a[0], x)
  {
    var k :| 0 <= k < |a| && a[k] == x;
  }

  /** The tail of a strictly sorted list holds every element except the head. */
  lemma TailElements(a: seq<Location>, x: Location)
    requires StrictlySorted(a) && |a| > 0
    ensures x in a[1..] <==> x in a && x != a[0]
  {
    if x in a[1..] {
      var i :| 0 <= i < |a[1..]| && a[1..][i] == x;
      assert LocLess(a[0], a[i + 1]);
      LocLessIrreflexive(x);
    }
    if x in a && x != a[0] {
      var k :| 0 <= k < |a| && a[k] == x;
      assert a[1..][k - 1] == x;
    }
  }

  // ---------------------------------------------------------------------------
  // The grouping
  // ---------------------------------------------------------------------------

  /** The summaries of the venues at `loc`, in the order the venue table yields them. */
  function VenuesAt(vs: seq<Venue>, loc: Location): (r: seq<Summary>)
    ensures forall i :: 0 <= i < |vs| && LocationOf(vs[i]) == loc ==> SummaryOf(vs[i]) in r
    ensures forall x :: x in r ==> exists i :: 0 <= i < |vs| && LocationOf(vs[i]) == loc && SummaryOf(vs[i]) == x
  {
    if |vs| == 0 then []
    else
      var rest := VenuesAt(vs[1..], loc);
      assert forall i :: 1 <= i < |vs| ==> vs[i] == vs[1..][i - 1];
      (if LocationOf(vs[0]) == loc then [SummaryOf(vs[0])] else []) + rest
  }

  /** One area per location, in the order of `locs`. */
  function AreasFor(vs: seq<Venue>, locs: seq<Location>): (r: seq<Area>)
    ensures |r| == |locs|
    ensures forall i :: 0 <= i < |r| ==> AreaLocation(r[i]) == locs[i]
    ensures forall i :: 0 <= i < |r| ==> r[i].venues == VenuesAt(vs, locs[i])
  {
    if |locs| == 0 then []
    else [Area(locs[0].city, locs[0].state, VenuesAt(vs, locs[0]))] + AreasFor(vs, locs[1..])
  }

  /**
   * `venues()`: the areas of the listing page. An empty venue table gives an
   * empty listing; otherwise one area per distinct location, strictly ascending,
   * each holding the venues at its location in table order.
   */
  function GroupByLocation(vs: seq<Venue>): (r: seq<Area>)
    ensures |vs| == 0 ==> r == []
    ensures forall i, j :: 0 <= i < j < |r| ==> LocLess(AreaLocation(r[i]), AreaLocation(r[j]))
    ensures forall i :: 0 <= i < |r| ==> AreaLocation(r[i]) in LocationSet(vs)
    ensures forall v :: v in vs ==> exists i :: 0 <= i < |r| && AreaLocation(r[i]) == LocationOf(v)
    ensures forall i :: 0 <= i < |r| ==> r[i].venues == VenuesAt(vs, AreaLocation(r[i]))
  {
    if |vs| == 0 then []
    else
      var locs := Locations(vs);
      var r := AreasFor(vs, locs);
      assert forall v :: v in vs ==> LocationOf(v) in locs;
      r
  }

  /** Under the primary key on `id`, a venue's entry is found only at its own location. */
  lemma SummaryOnlyAtOwnLocation(vs: seq<Venue>, v: Venue, loc: Location)
    requires UniqueKeys(vs, VenueKey)
    requires v in vs
    ensures SummaryOf(v) in VenuesAt(vs, loc) <==> loc == LocationOf(v)
  {
    if SummaryOf(v) in VenuesAt(vs, loc) {
      var m :| 0 <= m < |vs| && vs[m] == v;
      var k :| 0 <= k < |vs| && LocationOf(vs[k]) == loc && SummaryOf(vs[k]) == SummaryOf(v);
      assert VenueKey(vs[k]) == VenueKey(vs[m]);
      assert k == m;
    }
  }

  /**
   * A venue is listed in an area exactly when the area's city and state are its
   * own (the venue table having a primary key on `id`).
   */
  lemma VenueListedAtOwnLocation(vs: seq<Venue>, v: Venue)
    requires UniqueKeys(vs, VenueKey)
    requires v in vs
    ensures var r := GroupByLocation(vs);
      forall i :: 0 <= i < |r| ==> (SummaryOf(v) in r[i].venues <==> AreaLocation(r[i]) == LocationOf(v))
  {
    var r := GroupByLocation(vs);
    forall i | 0 <= i < |r|
      ensures SummaryOf(v) in r[i].venues <==> AreaLocation(r[i]) == LocationOf(v)
    {
      var loc := AreaLocation(r[i]);
      assert r[i].venues == VenuesAt(vs, loc);
      SummaryOnlyAtOwnLocation(vs, v, loc);
    }
  }

  /** Hence every venue is listed in exactly one area. */
  lemma VenueInExactlyOneArea(vs: seq<Venue>, v: Venue)
    requires UniqueKeys(vs, VenueKey)
    requires v in vs
    ensures var r := GroupByLocation(vs);
      exists i :: 0 <= i < |r| && SummaryOf(v) in r[i].venues
    ensures var r := GroupByLocation(vs);
      forall i, j :: 0 <= i < |r| && 0 <= j < |r| && SummaryOf(v) in r[i].venues && SummaryOf(v) in r[j].venues ==> i == j
  {
    var r := GroupByLocation(vs);
    VenueListedAtOwnLocation(vs, v);
    AreaLocationsDistinct(vs);
    var k :| 0 <= k < |r| && AreaLocation(r[k]) == LocationOf(v);
    assert SummaryOf(v) in r[k].venues;
  }

  /** No two areas of the listing share a location. */
  lemma AreaLocationsDistinct(vs: seq<Venue>)
    ensures var r := GroupByLocation(vs);
      forall i, j :: 0 <= i < |r| && 0 <= j < |r| && AreaLocation(r[i]) == AreaLocation(r[j]) ==> i == j
  {
    var r := GroupByLocation(vs);
    forall i, j | 0 <= i < |r| && 0 <= j < |r| && AreaLocation(r[i]) == AreaLocation(r[j])
      ensures i == j
    {
      LocLessIrreflexive(AreaLocation(r[i]));
    }
  }

  /** Area membership keeps table order: the venues of two table runs are concatenated. */
  lemma {:induction false} VenuesAtAppend(a: seq<Venue>, b: seq<Venue>, loc: Location)
    ensures VenuesAt(a + b, loc) == VenuesAt(a, loc) + VenuesAt(b, loc)
  {
    if |a| > 0 {
      assert (a + b)[1..] == a[1..] + b;
      VenuesAtAppend(a[1..], b, loc);
    } else {
      assert a + b == b;
    }
  }

  // ---------------------------------------------------------------------------
  // No venue is lost or repeated
  // ---------------------------------------------------------------------------

  /** The number of entries over all areas. */
  function ListedCount(areas: seq<Area>): nat
  {
    if |areas| == 0 then 0 else |areas[0].venues| + ListedCount(areas[1..])
  }

  function Occurrences(locs: seq<Location>, l: Location): nat
  {
    if |locs| == 0 then 0 else (if locs[0] == l then 1 else 0) + Occurrences(locs[1..], l)
  }

  lemma {:induction false} OccursOnce(locs: seq<Location>, l: Location)
    requires StrictlySorted(locs)
    requires l in locs
    ensures Occurrences(locs, l) == 1
  {
    if locs[0] == l {
      OccursNever(locs[1..], l);
    } else {
      assert l in locs[1..];
      OccursOnce(locs[1..], l);
    }
  }

  lemma {:induction false} OccursNever(locs: seq<Location>, l: Location)
    requires StrictlySorted([l] + locs)
    ensures Occurrences(locs, l) == 0
  {
    if |locs| > 0 {
      assert LocLess(([l] + locs)[0], ([l] + locs)[1]);
      LocLessIrreflexive(l);
      assert StrictlySorted([l] + locs[1..]) by {
        forall i, j | 0 <= i < j < |[l] + locs[1..]|
          ensures LocLess(([l] + locs[1..])[i], ([l] + locs[1..])[j])
        {
          if i == 0 {
            assert ([l] + locs[1..])[j] == ([l] + locs)[j + 1];
          } else {
            assert ([l] + locs[1..])[i] == ([l] + locs)[i + 1];
            assert ([l] + locs[1..])[j] == ([l] + locs)[j + 1];
          }
        }
      }
      OccursNever(locs[1..], l);
    }
  }

  /** Counting the entries of `AreasFor` venue by venue. */
  lemma {:induction false} ListedCountByVenue(vs: seq<Venue>, locs: seq<Location>)
    requires |vs| > 0
    ensures ListedCount(AreasFor(vs, locs))
         == Occurrences(locs, LocationOf(vs[0])) + ListedCount(AreasFor(vs[1..], locs))
  {
    if |locs| > 0 {
      ListedCountByVenue(vs, locs[1..]);
    }
  }

  lemma {:induction false} ListedCountAll(vs: seq<Venue>, locs: seq<Location>)
    requires StrictlySorted(locs)
    requires forall v :: v in vs ==> LocationOf(v) in locs
    ensures ListedCount(AreasFor(vs, locs)) == |vs|
  {
    if |vs| == 0 {
      EmptyAreas(locs);
    } else {
      ListedCountByVenue(vs, locs);
      OccursOnce(locs, LocationOf(vs[0]));
      assert forall v :: v in vs[1..] ==> v in vs;
      ListedCountAll(vs[1..], locs);
    }
  }

  lemma {:induction false} EmptyAreas(locs: seq<Location>)
    ensures ListedCount(AreasFor([], locs)) == 0
  {
    if |locs| > 0 {
      EmptyAreas(locs[1..]);
    }
  }

  /** The listing holds exactly as many entries as there are venues. */
  lemma ListingCountsEveryVenueOnce(vs: seq<Venue>)
    ensures ListedCount(GroupByLocation(vs)) == |vs|
  {
    if |vs| > 0 {
      assert forall v :: v in vs ==> LocationOf(v) in Locations(vs);
      ListedCountAll(vs, Locations(vs));
    }
  }
}

=== FILE: mutations.dfy ===
/**
 * The handlers that write: editing a venue or an artist, deleting a venue or an
 * artist together with its shows, creating and deleting a show. Each runs in
 * one session: on `commit` the new store replaces the old one, and on any
 * exception the session is rolled back and the old store stays. Whether the
 * database accepts the commit is the parameter `commitOk`.
 */
module Mutations {
  import opened Tables
  import opened Records

  /** The store after a handler, and whether it flashed its error message. */
  datatype Outcome = Outcome(store: Store, error: bool)

  /** The result of a delete handler, with the name its success message shows. */
  datatype DeleteOutcome = DeleteOutcome(store: Store, error: bool, deletedName: string)

  /**
   * An edit submission either reaches the handler's `try` block or fails first:
   * a form without any `genres` value raises `KeyError` before the block, the
   * request ends in a server error, and nothing is written.
   */
  datatype EditOutcome = GenresMissing | Handled(outcome: Outcome)

  /** The fields of the venue edit form, as submitted. */
  datatype VenueForm = VenueForm(
    name: string,
    genres: seq<string>,
    address: string,
    city: string,
    state: string,
    phone: string,
    websiteLink: string,
    facebookLink: string,
    imageLink: string,
    seekingTalent: Option<string>,
    seekingDescription: string)

  /** The fields of the artist edit form, as submitted. */
  datatype ArtistForm = ArtistForm(
    name: string,
    genres: seq<string>,
    city: string,
    state: string,
    phone: string,
    websiteLink: string,
    facebookLink: string,
    imageLink: string,
    seekingVenue: Option<string>,
    seekingDescription: string)

  /** A checkbox value read with `data.get`: ticked when present and non-empty. */
  predicate Ticked(value: Option<string>)
  {
    value.Some? && value.value != ""
  }

  /**
   * Venue `id` with every column overwritten from the form: the form's
   * `website_link` becomes `website`, and `seeking_talent` is whether its
   * checkbox was ticked.
   */
  function EditedVenue(id: Id, f: VenueForm): (r: Venue)
    ensures r.id == id
    ensures r.name == f.name && r.genres == f.genres && r.address == f.address
    ensures r.city == f.city && r.state == f.state && r.phone == f.phone
    ensures r.website == f.websiteLink && r.facebookLink == f.facebookLink && r.imageLink == f.imageLink
    ensures r.seekingTalent <==> f.seekingTalent.Some? && f.seekingTalent.value != ""
    ensures r.seekingDescription == f.seekingDescription
  {
    Venue(id, f.name, f.genres, f.address, f.city, f.state, f.phone, f.websiteLink,
          f.facebookLink, Ticked(f.seekingTalent), f.seekingDescription, f.imageLink)
  }

  /**
   * Artist `id` with every column overwritten from the form: the form's
   * `website_link` becomes `website`, and `seeking_venue` is whether its
   * checkbox was ticked.
   */
  function EditedArtist(id: Id, f: ArtistForm): (r: Artist)
    ensures r.id == id
    ensures r.name == f.name && r.genres == f.genres
    ensures r.city == f.city && r.state == f.state && r.phone == f.phone
    ensures r.website == f.websiteLink && r.facebookLink == f.facebookLink && r.imageLink == f.imageLink
    ensures r.seekingVenue <==> f.seekingVenue.Some? && f.seekingVenue.value != ""
    ensures r.seekingDescription == f.seekingDescription
  {
    Artist(id, f.name, f.genres, f.city, f.state, f.phone, f.websiteLink,
           f.facebookLink, Ticked(f.seekingVenue), f.seekingDescription, f.imageLink)
  }

  /** `Show.query.get(id)`. */
  function GetShow(st: Store, id: Id): (r: Option<Show>)
    ensures r.Some? ==> r.value in st.shows && r.value.id == id
    ensures r.None? ==> forall s :: s in st.shows ==> s.id != id
  {
    Find(st.shows, ShowKey, id)
  }

  // ---------------------------------------------------------------------------
  // Edit
  // ---------------------------------------------------------------------------

  /**
   * `edit_venue_submission(venue_id)`. Without genres nothing runs. A missing
   * venue is skipped silently (no commit, no error). Otherwise the venue's row
   * is overwritten from the form, keeping its id, and the rest of the store is
   * untouched; a failed commit keeps the old store and reports an error.
   */
  function EditVenue(st: Store, venueId: Id, f: VenueForm, commitOk: bool): (r: EditOutcome)
    ensures r.GenresMissing? <==> |f.genres| == 0
    ensures r.Handled? ==> (r.outcome.error <==> HasVenue(st, venueId) && !commitOk)
    ensures r.Handled? && !(HasVenue(st, venueId) && commitOk) ==> r.outcome.store == st
    ensures r.Handled? && HasVenue(st, venueId) && commitOk ==>
      var after := r.outcome.store;
      && GetVenue(after, venueId) == Some(EditedVenue(venueId, f))
      && |after.venues| == |st.venues|
      && (forall i :: 0 <= i < |st.venues| ==>
            after.venues[i] == (if st.venues[i].id == venueId then EditedVenue(venueId, f) else st.venues[i]))
      && (forall k :: k != venueId ==> GetVenue(after, k) == GetVenue(st, k))
      && after.artists == st.artists
      && after.shows == st.shows
  {
    if |f.genres| == 0 then GenresMissing
    else
      match GetVenue(st, venueId)
      case None => Handled(Outcome(st, false))
      case Some(_) =>
        if !commitOk then Handled(Outcome(st, true))
        else
          var edited := EditedVenue(venueId, f);
          FindReplaced(st.venues, VenueKey, venueId, edited);
          forall k | k != venueId
            ensures Find(Replace(st.venues, VenueKey, venueId, edited), VenueKey, k) == GetVenue(st, k)
          {
            FindReplaceOther(st.venues, VenueKey, venueId, edited, k);
          }
          Handled(Outcome(Store(Replace(st.venues, VenueKey, venueId, edited), st.artists, st.shows), false))
  }

  /** `edit_artist_submission(artist_id)`: the same over the artist table. */
  function EditArtist(st: Store, artistId: Id, f: ArtistForm, commitOk: bool): (r: EditOutcome)
    ensures r.GenresMissing? <==> |f.genres| == 0
    ensures r.Handled? ==> (r.outcome.error <==> HasArtist(st, artistId) && !commitOk)
    ensures r.Handled? && !(HasArtist(st, artistId) && commitOk) ==> r.outcome.store == st
    ensures r.Handled? && HasArtist(st, artistId) && commitOk ==>
      var after := r.outcome.store;
      && GetArtist(after, artistId) == Some(EditedArtist(artistId, f))
      && |after.artists| == |st.artists|
      && (forall i :: 0 <= i < |st.artists| ==>
            after.artists[i] == (if st.artists[i].id == artistId then EditedArtist(artistId, f) else st.artists[i]))
      && (forall k :: k != artistId ==> GetArtist(after, k) == GetArtist(st, k))
      && after.venues == st.venues
      && after.shows == st.shows
  {
    if |f.genres| == 0 then GenresMissing
    else
      match GetArtist(st, artistId)
      case None => Handled(Outcome(st, false))
      case Some(_) =>
        if !commitOk then Handled(Outcome(st, true))
        else
          var edited := EditedArtist(artistId, f);
          FindReplaced(st.artists, ArtistKey, artistId, edited);
          forall k | k != artistId
            ensures Find(Replace(st.artists, ArtistKey, artistId, edited), ArtistKey, k) == GetArtist(st, k)
          {
            FindReplaceOther(st.artists, ArtistKey, artistId, edited, k);
          }
          Handled(Outcome(Store(st.venues, Replace(st.artists, ArtistKey, artistId, edited), st.shows), false))
  }

  /** Submitting the same venue form twice leaves the store as submitting it once. */
  lemma EditVenueIdempotent(st: Store, venueId: Id, f: VenueForm)
    requires |f.genres| > 0
    ensures var once := EditVenue(st, venueId, f, true).outcome.store;
      EditVenue(once, venueId, f, true).outcome.store == once
  {
    if HasVenue(st, venueId) {
      ReplaceIdempotent(st.venues, VenueKey, venueId, EditedVenue(venueId, f));
    }
  }

  /** Submitting the same artist form twice leaves the store as submitting it once. */
  lemma EditArtistIdempotent(st: Store, artistId: Id, f: ArtistForm)
    requires |f.genres| > 0
    ensures var once := EditArtist(st, artistId, f, true).outcome.store;
      EditArtist(once, artistId, f, true).outcome.store == once
  {
    if HasArtist(st, artistId) {
      ReplaceIdempotent(st.artists, ArtistKey, artistId, EditedArtist(artistId, f));
    }
  }

  /** A venue edit keeps every key and every reference intact. */
  lemma EditVenueKeepsWellFormed(st: Store, venueId: Id, f: VenueForm, commitOk: bool)
    requires WellFormed(st)
    requires |f.genres| > 0
    ensures WellFormed(EditVenue(st, venueId, f, commitOk).outcome.store)
  {
    var after := EditVenue(st, venueId, f, commitOk).outcome.store;
    if after != st {
      ReplaceKeepsUnique(st.venues, VenueKey, venueId, EditedVenue(venueId, f));
      forall k ensures HasVenue(after, k) <==> HasVenue(st, k) {
        FindSomeIffKey(st.venues, VenueKey, k);
        FindSomeIffKey(after.venues, VenueKey, k);
      }
    }
  }

  /** An artist edit keeps every key and every reference intact. */
  lemma EditArtistKeepsWellFormed(st: Store, artistId: Id, f: ArtistForm, commitOk: bool)
    requires WellFormed(st)
    requires |f.genres| > 0
    ensures WellFormed(EditArtist(st, artistId, f, commitOk).outcome.store)
  {
    var after := EditArtist(st, artistId, f, commitOk).outcome.store;
    if after != st {
      ReplaceKeepsUnique(st.artists, ArtistKey, artistId, EditedArtist(artistId, f));
      forall k ensures HasArtist(after, k) <==> HasArtist(st, k) {
        FindSomeIffKey(st.artists, ArtistKey, k);
        FindSomeIffKey(after.artists, ArtistKey, k);
      }
    }
  }

  // ---------------------------------------------------------------------------
  // Delete venue / artist
  // ---------------------------------------------------------------------------

  /**
   * `delete_venue(venue_id)`. A missing venue leaves `shows` as `None`, and
   * iterating it raises: rolled back, error. Otherwise the venue and every show
   * booked at it are deleted in one commit; artists are never touched.
   */
  function DeleteVenue(st: Store, venueId: Id, commitOk: bool): (r: DeleteOutcome)
    ensures r.error <==> !HasVenue(st, venueId) || !commitOk
    ensures r.error ==> r.store == st
    ensures !r.error ==>
      && r.deletedName == GetVenue(st, venueId).value.name
      && (forall v :: v in r.store.venues <==> v in st.venues && v.id != venueId)
      && (forall s :: s in r.store.shows <==> s in st.shows && s.venueId != venueId)
      && r.store.artists == st.artists
  {
    match GetVenue(st, venueId)
    case None => DeleteOutcome(st, true, "")
    case Some(v) =>
      if !commitOk then DeleteOutcome(st, true, v.name)
      else
        var after := Store(Reject(st.venues, VenueKey, venueId), st.artists, Reject(st.shows, ShowVenueKey, venueId));
        DeleteOutcome(after, false, v.name)
  }

  /** `delete_artist(artist_id)`: the mirror of `DeleteVenue`; venues are never touched. */
  function DeleteArtist(st: Store, artistId: Id, commitOk: bool): (r: DeleteOutcome)
    ensures r.error <==> !HasArtist(st, artistId) || !commitOk
    ensures r.error ==> r.store == st
    ensures !r.error ==>
      && r.deletedName == GetArtist(st, artistId).value.name
      && (forall a :: a in r.store.artists <==> a in st.artists && a.id != artistId)
      && (forall s :: s in r.store.shows <==> s in st.shows && s.artistId != artistId)
      && r.store.venues == st.venues
  {
    match GetArtist(st, artistId)
    case None => DeleteOutcome(st, true, "")
    case Some(a) =>
      if !commitOk then DeleteOutcome(st, true, a.name)
      else
        var after := Store(st.venues, Reject(st.artists, ArtistKey, artistId), Reject(st.shows, ShowArtistKey, artistId));
        DeleteOutcome(after, false, a.name)
  }

  /**
   * Deleting a venue never leaves a dangling show: the store keeps its keys and
   * references whatever the outcome.
   */
  lemma DeleteVenueKeepsWellFormed(st: Store, venueId: Id, commitOk: bool)
    requires WellFormed(st)
    ensures WellFormed(DeleteVenue(st, venueId, commitOk).store)
  {
    var r := DeleteVenue(st, venueId, commitOk);
    if !r.error {
      var after := r.store;
      RejectKeepsUnique(st.venues, VenueKey, VenueKey, venueId);
      RejectKeepsUnique(st.shows, ShowKey, ShowVenueKey, venueId);
      forall s | s in after.shows ensures HasArtist(after, s.artistId) && HasVenue(after, s.venueId) {
        var v := GetVenue(st, s.venueId).value;
        assert v in after.venues;
      }
    }
  }

  /** Deleting an artist never leaves a dangling show. */
  lemma DeleteArtistKeepsWellFormed(st: Store, artistId: Id, commitOk: bool)
    requires WellFormed(st)
    ensures WellFormed(DeleteArtist(st, artistId, commitOk).store)
  {
    var r := DeleteArtist(st, artistId, commitOk);
    if !r.error {
      var after := r.store;
      RejectKeepsUnique(st.artists, ArtistKey, ArtistKey, artistId);
      RejectKeepsUnique(st.shows, ShowKey, ShowArtistKey, artistId);
      forall s | s in after.shows ensures HasArtist(after, s.artistId) && HasVenue(after, s.venueId) {
        var a := GetArtist(st, s.artistId).value;
        assert a in after.artists;
      }
    }
  }

  /**
   * A successful venue delete removes exactly one venue row and exactly the
   * venue's shows, after which the venue can no longer be found.
   */
  lemma DeleteVenueCounts(st: Store, venueId: Id)
    requires WellFormed(st)
    requires HasVenue(st, venueId)
    ensures var after := DeleteVenue(st, venueId, true).store;
      && |after.venues| == |st.venues| - 1
      && |after.shows| == |st.shows| - |ShowsAtVenue(st, venueId)|
      && !HasVenue(after, venueId)
      && ShowsAtVenue(after, venueId) == []
  {
    var after := DeleteVenue(st, venueId, true).store;
    FindSomeIffKey(st.venues, VenueKey, venueId);
    SelectUniqueSize(st.venues, VenueKey, venueId);
    SelectRejectSizes(st.venues, VenueKey, venueId);
    SelectRejectSizes(st.shows, ShowVenueKey, venueId);
    SelectAfterReject(st.shows, ShowVenueKey, venueId);
  }

  /** A successful artist delete removes exactly one artist row and exactly the artist's shows. */
  lemma DeleteArtistCounts(st: Store, artistId: Id)
    requires WellFormed(st)
    requires HasArtist(st, artistId)
    ensures var after := DeleteArtist(st, artistId, true).store;
      && |after.artists| == |st.artists| - 1
      && |after.shows| == |st.shows| - |ShowsOfArtist(st, artistId)|
      && !HasArtist(after, artistId)
      && ShowsOfArtist(after, artistId) == []
  {
    var after := DeleteArtist(st, artistId, true).store;
    FindSomeIffKey(st.artists, ArtistKey, artistId);
    SelectUniqueSize(st.artists, ArtistKey, artistId);
    SelectRejectSizes(st.artists, ArtistKey, artistId);
    SelectRejectSizes(st.shows, ShowArtistKey, artistId);
    SelectAfterReject(st.shows, ShowArtistKey, artistId);
  }

  // ---------------------------------------------------------------------------
  // Shows
  // ---------------------------------------------------------------------------

  /**
   * `create_show_submission()`: the new row takes the next id of the table's
   * sequence (`newId`). The insert commits only if both foreign keys resolve
   * and the id is unused; otherwise it is rolled back and nothing persists.
   */
  function CreateShow(st: Store, newId: Id, startTime: Timestamp, artistId: Id, venueId: Id, commitOk: bool): (r: Outcome)
    ensures !r.error <==>
      HasArtist(st, artistId) && HasVenue(st, venueId) && newId !in Keys(st.shows, ShowKey) && commitOk
    ensures r.error ==> r.store == st
    ensures !r.error ==>
      r.store == Store(st.venues, st.artists, st.shows + [Show(newId, startTime, artistId, venueId)])
  {
    if HasArtist(st, artistId) && HasVenue(st, venueId) && !GetShow(st, newId).Some? && commitOk then
      FindSomeIffKey(st.shows, ShowKey, newId);
      Outcome(Store(st.venues, st.artists, st.shows + [Show(newId, startTime, artistId, venueId)]), false)
    else
      FindSomeIffKey(st.shows, ShowKey, newId);
      Outcome(st, true)
  }

  /** A committed show keeps every key and reference intact. */
  lemma CreateShowKeepsWellFormed(st: Store, newId: Id, startTime: Timestamp, artistId: Id, venueId: Id, commitOk: bool)
    requires WellFormed(st)
    ensures WellFormed(CreateShow(st, newId, startTime, artistId, venueId, commitOk).store)
  {
    var r := CreateShow(st, newId, startTime, artistId, venueId, commitOk);
    if !r.error {
      var shows := r.store.shows;
      forall i, j | 0 <= i < j < |shows| ensures ShowKey(shows[i]) != ShowKey(shows[j]) {
        if j == |st.shows| {
          assert shows[i] == st.shows[i];
        } else {
          assert shows[i] == st.shows[i] && shows[j] == st.shows[j];
        }
      }
    }
  }

  /** A created show is listed last among its venue's shows and its artist's shows. */
  lemma CreatedShowListedLast(st: Store, newId: Id, startTime: Timestamp, artistId: Id, venueId: Id)
    requires !CreateShow(st, newId, startTime, artistId, venueId, true).error
    ensures var after, show := CreateShow(st, newId, startTime, artistId, venueId, true).store, Show(newId, startTime, artistId, venueId);
      && ShowsAtVenue(after, venueId) == ShowsAtVenue(st, venueId) + [show]
      && ShowsOfArtist(after, artistId) == ShowsOfArtist(st, artistId) + [show]
  {
    var show := Show(newId, startTime, artistId, venueId);
    SelectAppend(st.shows, [show], ShowVenueKey, venueId);
    SelectAppend(st.shows, [show], ShowArtistKey, artistId);
  }

  /**
   * `delete_show(show_id)`. A missing show is skipped silently (no commit, no
   * error); otherwise that row is deleted, or kept with an error when the
   * commit fails. Venues and artists are never touched.
   */
  function DeleteShow(st: Store, showId: Id, commitOk: bool): (r: Outcome)
    ensures r.error <==> GetShow(st, showId).Some? && !commitOk
    ensures r.store.venues == st.venues && r.store.artists == st.artists
    ensures forall s :: s in r.store.shows ==> s in st.shows
    ensures forall s :: s in st.shows && s !in r.store.shows ==> s.id == showId
    ensures GetShow(st, showId).Some? && commitOk ==> GetShow(r.store, showId).None?
    ensures !(GetShow(st, showId).Some? && commitOk) ==> r.store == st
  {
    match GetShow(st, showId)
    case None => Outcome(st, false)
    case Some(_) =>
      if !commitOk then Outcome(st, true)
      else Outcome(Store(st.venues, st.artists, Reject(st.shows, ShowKey, showId)), false)
  }

  /** Deleting a show keeps every key and reference, and drops exactly one row when the show exists. */
  lemma DeleteShowKeepsWellFormed(st: Store, showId: Id, commitOk: bool)
    requires WellFormed(st)
    ensures WellFormed(DeleteShow(st, showId, commitOk).store)
    ensures GetShow(st, showId).Some? && commitOk ==> |DeleteShow(st, showId, commitOk).store.shows| == |st.shows| - 1
  {
    RejectKeepsUnique(st.shows, ShowKey, ShowKey, showId);
    if GetShow(st, showId).Some? && commitOk {
      FindSomeIffKey(st.shows, ShowKey, showId);
      SelectUniqueSize(st.shows, ShowKey, showId);
      SelectRejectSizes(st.shows, ShowKey, showId);
    }
  }
}

=== FILE: partition.dfy ===
/**
 * Classifying a venue's or artist's shows against the instant `now`. The
 * variants in app.py and models.py differ only at the boundary: the detail
 * handlers use `start_time < now` / else, a true partition in which a show at
 * exactly `now` is upcoming; the model methods use `start_time > now` and
 * `start_time < now`, so a show at exactly `now` is in neither list.
 */
module Partition {
  import opened Records

  /** Shows with `start_time < now`, in order: past under both variants. */
  function Before(shows: seq<Show>, now: Timestamp): (r: seq<Show>)
    ensures forall s :: s in r <==> s in shows && s.startTime < now
  {
    if |shows| == 0 then []
    else
      var last := shows[|shows| - 1];
      Before(shows[..|shows| - 1], now) + (if last.startTime < now then [last] else [])
  }

  /** Shows with `start_time >= now`, in order: the detail handlers' `else` branch. */
  function NotBefore(shows: seq<Show>, now: Timestamp): (r: seq<Show>)
    ensures forall s :: s in r <==> s in shows && s.startTime >= now
  {
    if |shows| == 0 then []
    else
      var last := shows[|shows| - 1];
      NotBefore(shows[..|shows| - 1], now) + (if last.startTime >= now then [last] else [])
  }

  /** Shows with `start_time > now`, in order: upcoming under the model methods. */
  function After(shows: seq<Show>, now: Timestamp): (r: seq<Show>)
    ensures forall s :: s in r <==> s in shows && s.startTime > now
  {
    if |shows| == 0 then []
    else
      var last := shows[|shows| - 1];
      After(shows[..|shows| - 1], now) + (if last.startTime > now then [last] else [])
  }

  /** Shows starting exactly at `now`. */
  function AtInstant(shows: seq<Show>, now: Timestamp): (r: seq<Show>)
    ensures forall s :: s in r <==> s in shows && s.startTime == now
  {
    if |shows| == 0 then []
    else
      var last := shows[|shows| - 1];
      AtInstant(shows[..|shows| - 1], now) + (if last.startTime == now then [last] else [])
  }

  /** Appending a show to the input appends it to `Before` exactly when it is past. */
  lemma BeforeSnoc(xs: seq<Show>, s: Show, now: Timestamp)
    ensures s.startTime < now ==> Before(xs + [s], now) == Before(xs, now) + [s]
    ensures s.startTime >= now ==> Before(xs + [s], now) == Before(xs, now)
  {
    assert (xs + [s])[..|xs|] == xs;
    assert Before(xs, now) + [] == Before(xs, now);
  }

  lemma NotBeforeSnoc(xs: seq<Show>, s: Show, now: Timestamp)
    ensures s.startTime >= now ==> NotBefore(xs + [s], now) == NotBefore(xs, now) + [s]
    ensures s.startTime < now ==> NotBefore(xs + [s], now) == NotBefore(xs, now)
  {
    assert (xs + [s])[..|xs|] == xs;
    assert NotBefore(xs, now) + [] == NotBefore(xs, now);
  }

  /**
   * The detail handlers' split is a true partition: every show is past or
   * upcoming and never both, and the two lists together are as long as the input.
   */
  lemma {:induction false} PastUpcomingPartition(shows: seq<Show>, now: Timestamp)
    ensures |Before(shows, now)| + |NotBefore(shows, now)| == |shows|
    ensures forall s :: s in shows ==> (s in Before(shows, now) <==> s !in NotBefore(shows, now))
  {
    if |shows| > 0 {
      PastUpcomingPartition(shows[..|shows| - 1], now);
    }
  }

  /** The model methods' split, with the shows at `now` as a third, dropped part. */
  lemma {:induction false} StrictSplitSizes(shows: seq<Show>, now: Timestamp)
    ensures |Before(shows, now)| + |After(shows, now)| + |AtInstant(shows, now)| == |shows|
  {
    if |shows| > 0 {
      StrictSplitSizes(shows[..|shows| - 1], now);
    }
  }

  /**
   * Under the model methods past and upcoming are disjoint and together cover at
   * most the shows; they cover all of them exactly when no show starts at `now`.
   */
  lemma StrictSplitCoverage(shows: seq<Show>, now: Timestamp)
    ensures forall s :: s in Before(shows, now) ==> s !in After(shows, now)
    ensures |Before(shows, now)| + |After(shows, now)| <= |shows|
    ensures |Before(shows, now)| + |After(shows, now)| == |shows|
        <==> forall s :: s in shows ==> s.startTime != now
  {
    StrictSplitSizes(shows, now);
    if exists s :: s in shows && s.startTime == now {
      var s :| s in shows && s.startTime == now;
      assert s in AtInstant(shows, now);
    } else {
      NoneAtInstant(shows, now);
    }
  }

  lemma {:induction false} NoneAtInstant(shows: seq<Show>, now: Timestamp)
    requires forall s :: s in shows ==> s.startTime != now
    ensures AtInstant(shows, now) == []
  {
    if |shows| > 0 {
      var init := shows[..|shows| - 1];
      assert forall s :: s in init ==> s in shows;
      NoneAtInstant(init, now);
    }
  }

  /**
   * The two variants agree on past shows, and the detail handlers' upcoming list
   * is the model methods' one with the shows at exactly `now` merged in.
   */
  lemma {:induction false} UpcomingVariants(shows: seq<Show>, now: Timestamp)
    ensures |NotBefore(shows, now)| == |After(shows, now)| + |AtInstant(shows, now)|
    ensures (forall s :: s in shows ==> s.startTime != now) ==> NotBefore(shows, now) == After(shows, now)
  {
    if |shows| > 0 {
      var init := shows[..|shows| - 1];
      assert forall s :: s in init ==> s in shows;
      UpcomingVariants(init, now);
    }
  }
}

=== FILE: records.dfy ===
/**
 * The three relations of the booking directory (venue, artist, show) and the
 * integrity constraints the database enforces on them: a primary key per table
 * and the two foreign keys of a show.
 */
module Records {
  import opened Tables

  type Id = int

  /** A show's start time. The application stores a naive `datetime`; only its order matters here. */
  type Timestamp = int

  datatype Venue = Venue(
    id: Id,
    name: string,
    genres: seq<string>,
    address: string,
    city: string,
    state: string,
    phone: string,
    website: string,
    facebookLink: string,
    seekingTalent: bool,
    seekingDescription: string,
    imageLink: string)

  datatype Artist = Artist(
    id: Id,
    name: string,
    genres: seq<string>,
    city: string,
    state: string,
    phone: string,
    website: string,
    facebookLink: string,
    seekingVenue: bool,
    seekingDescription: string,
    imageLink: string)

  datatype Show = Show(id: Id, startTime: Timestamp, artistId: Id, venueId: Id)

  /** The database: each table as its rows in scan order. */
  datatype Store = Store(venues: seq<Venue>, artists: seq<Artist>, shows: seq<Show>)

  /** The `{"id", "name"}` entry listings and search results show for a record. */
  datatype Summary = Summary(id: Id, name: string)

  function SummaryOf(v: Venue): Summary
  {
    Summary(v.id, v.name)
  }

  function ArtistSummaryOf(a: Artist): Summary
  {
    Summary(a.id, a.name)
  }

  /** Which image an event entry carries: the artist's or the venue's `image_link`. */
  datatype ImageLink = ArtistImage(link: string) | VenueImage(link: string)

  /**
   * A show as listed on a detail page (`show_info` / `event`): the artist's id and
   * name, the start time, and exactly one image link.
   */
  datatype Event = Event(artistId: Id, artistName: string, startTime: Timestamp, image: ImageLink)

  // Column accessors, used as the key argument of the table operations.
  function VenueKey(v: Venue): Id { v.id }
  function ArtistKey(a: Artist): Id { a.id }
  function ShowKey(s: Show): Id { s.id }
  function ShowVenueKey(s: Show): Id { s.venueId }
  function ShowArtistKey(s: Show): Id { s.artistId }

  predicate HasVenue(st: Store, id: Id)
  {
    GetVenue(st, id).Some?
  }

  predicate HasArtist(st: Store, id: Id)
  {
    GetArtist(st, id).Some?
  }

  /** Every show points at an existing artist and an existing venue. */
  predicate ReferencesResolve(st: Store)
  {
    forall s :: s in st.shows ==> HasArtist(st, s.artistId) && HasVenue(st, s.venueId)
  }

  /** The constraints the schema declares: three primary keys and two foreign keys. */
  predicate WellFormed(st: Store)
  {
    && UniqueKeys(st.venues, VenueKey)
    && UniqueKeys(st.artists, ArtistKey)
    && UniqueKeys(st.shows, ShowKey)
    && ReferencesResolve(st)
  }

  /** `Venue.query.get(id)`. */
  function GetVenue(st: Store, id: Id): (r: Option<Venue>)
    ensures r.Some? ==> r.value in st.venues && r.value.id == id
    ensures r.None? ==> forall v :: v in st.venues ==> v.id != id
  {
    Find(st.venues, VenueKey, id)
  }

  /** `Artist.query.get(id)`. */
  function GetArtist(st: Store, id: Id): (r: Option<Artist>)
    ensures r.Some? ==> r.value in st.artists && r.value.id == id
    ensures r.None? ==> forall a :: a in st.artists ==> a.id != id
  {
    Find(st.artists, ArtistKey, id)
  }

  /** `Show.query.filter_by(venue_id=id).all()`. */
  function ShowsAtVenue(st: Store, id: Id): (r: seq<Show>)
    ensures forall s :: s in r <==> s in st.shows && s.venueId == id
  {
    Select(st.shows, ShowVenueKey, id)
  }

  /** `Show.query.filter_by(artist_id=id).all()`. */
  function ShowsOfArtist(st: Store, id: Id): (r: seq<Show>)
    ensures forall s :: s in r <==> s in st.shows && s.artistId == id
  {
    Select(st.shows, ShowArtistKey, id)
  }
}

=== FILE: search.dfy ===
/**
 * Name search: `Venue.name.ilike(f"%{term}%")` and the same on artists. ILIKE is
 * SQL LIKE after lower-casing both sides; LIKE's `%` matches any run of
 * characters and `_` any single character.
 */
module Search {
  import opened Tables
  import opened Records

  /** The search page's `results`: a count, and a `data` list only when something matched. */
  datatype SearchResponse = SearchResponse(count: nat, data: Option<seq<Summary>>)

  // ---------------------------------------------------------------------------
  // LIKE / ILIKE
  // ---------------------------------------------------------------------------

  function LowerChar(c: char): char
  {
    if 'A' <= c <= 'Z' then (c as int + 32) as char else c
  }

  function Lower(s: string): (r: string)
    ensures |r| == |s|
    ensures forall i :: 0 <= i < |s| ==> r[i] == LowerChar(s[i])
  {
    if |s| == 0 then [] else [LowerChar(s[0])] + Lower(s[1..])
  }

  /** `s LIKE p` with `%` and `_` as the only special characters. */
  predicate Like(s: string, p: string)
    decreases |s| + |p|
  {
    if |p| == 0 then |s| == 0
    else if p[0] == '%' then Like(s, p[1..]) || (|s| > 0 && Like(s[1..], p))
    else |s| > 0 && (p[0] == '_' || p[0] == s[0]) && Like(s[1..], p[1..])
  }

  predicate ILike(s: string, p: string)
  {
    Like(Lower(s), Lower(p))
  }

  /** The filter the handlers apply to a name: `name.ilike(f"%{term}%")`. */
  predicate NameMatches(name: string, term: string)
  {
    ILike(name, "%" + term + "%")
  }

  // ---------------------------------------------------------------------------
  // For a term without wildcards, ILIKE '%term%' is case-insensitive substring search
  // ---------------------------------------------------------------------------

  predicate NoWildcards(t: string)
  {
    forall i :: 0 <= i < |t| ==> t[i] != '%' && t[i] != '_'
  }

  predicate IsPrefix(t: string, s: string)
  {
    |t| <= |s| && s[..|t|] == t
  }

  /** `t` occurs in `s` as a contiguous run of characters. */
  predicate Contains(s: string, t: string)
  {
    exists i :: 0 <= i <= |s| && IsPrefix(t, s[i..])
  }

  lemma {:induction false} PercentMatchesAll(s: string)
    ensures Like(s, "%")
  {
    if |s| > 0 {
      PercentMatchesAll(s[1..]);
    }
  }

  /** `t%` matches exactly the strings that start with `t`. */
  lemma {:induction false} TrailingPercent(s: string, t: string)
    requires NoWildcards(t)
    ensures Like(s, t + "%") <==> IsPrefix(t, s)
  {
    if |t| == 0 {
      assert t + "%" == "%";
      PercentMatchesAll(s);
    } else {
      assert (t + "%")[0] == t[0];
      assert (t + "%")[1..] == t[1..] + "%";
      if |s| > 0 {
        TrailingPercent(s[1..], t[1..]);
        assert IsPrefix(t, s) <==> t[0] == s[0] && IsPrefix(t[1..], s[1..]) by {
          if t[0] == s[0] && IsPrefix(t[1..], s[1..]) {
            assert s[..|t|] == [s[0]] + s[1..][..|t| - 1];
            assert t == [t[0]] + t[1..];
          }
        }
      }
    }
  }

  /** `%q` matches exactly the strings with a suffix matching `q`. */
  lemma {:induction false} LeadingPercent(s: string, q: string)
    ensures Like(s, "%" + q) <==> exists i :: 0 <= i <= |s| && Like(s[i..], q)
  {
    var p := "%" + q;
    assert p[0] == '%' && p[1..] == q;
    if |s| == 0 {
      assert s[0..] == s;
    } else {
      LeadingPercent(s[1..], q);
      if Like(s, p) {
        if !Like(s, q) {
          var i :| 0 <= i <= |s[1..]| && Like(s[1..][i..], q);
          assert s[1..][i..] == s[i + 1..];
        } else {
          assert s[0..] == s;
        }
      }
      if exists i :: 0 <= i <= |s| && Like(s[i..], q) {
        var i :| 0 <= i <= |s| && Like(s[i..], q);
        if i == 0 {
          assert s[0..] == s;
        } else {
          assert s[1..][i - 1..] == s[i..];
        }
      }
    }
  }

  /** For a wildcard-free term, `LIKE '%term%'` is substring search. */
  lemma LikeIsSubstring(s: string, t: string)
    requires NoWildcards(t)
    ensures Like(s, "%" + t + "%") <==> Contains(s, t)
  {
    assert "%" + t + "%" == "%" + (t + "%");
    LeadingPercent(s, t + "%");
    forall i | 0 <= i <= |s|
      ensures Like(s[i..], t + "%") <==> IsPrefix(t, s[i..])
    {
      TrailingPercent(s[i..], t);
    }
  }

  /**
   * The search filter for a term free of `%` and `_`: the name contains the
   * term, ignoring the case of ASCII letters.
   */
  lemma NameMatchesIsCaseInsensitiveSubstring(name: string, term: string)
    requires NoWildcards(term)
    ensures NameMatches(name, term) <==> Contains(Lower(name), Lower(term))
  {
    var lt := Lower(term);
    assert Lower("%" + term + "%") == "%" + lt + "%" by {
      LowerAppend("%", term);
      LowerAppend("%" + term, "%");
    }
    LikeIsSubstring(Lower(name), lt);
  }

  lemma {:induction false} LowerAppend(a: string, b: string)
    ensures Lower(a + b) == Lower(a) + Lower(b)
  {
    var l := Lower(a + b);
    assert |l| == |Lower(a) + Lower(b)|;
    forall i | 0 <= i < |l| ensures l[i] == (Lower(a) + Lower(b))[i] {
      if i < |a| {
        assert (a + b)[i] == a[i];
      } else {
        assert (a + b)[i] == b[i - |a|];
      }
    }
  }

  /** The empty term matches every name. */
  lemma EmptyTermMatchesAll(name: string)
    ensures NameMatches(name, "")
  {
    NameMatchesIsCaseInsensitiveSubstring(name, "");
    assert IsPrefix("", Lower(name)[0..]);
  }

  // ---------------------------------------------------------------------------
  // The two search handlers
  // ---------------------------------------------------------------------------

  /** The venues the ILIKE filter keeps, as `{"id", "name"}` entries, in table order. */
  function MatchingVenues(venues: seq<Venue>, term: string): (r: seq<Summary>)
    ensures forall v :: v in venues && NameMatches(v.name, term) ==> SummaryOf(v) in r
    ensures forall x :: x in r ==> NameMatches(x.name, term) && exists v :: v in venues && SummaryOf(v) == x
    ensures |r| <= |venues|
  {
    if |venues| == 0 then []
    else
      (if NameMatches(venues[0].name, term) then [SummaryOf(venues[0])] else [])
      + MatchingVenues(venues[1..], term)
  }

  /** The artists the ILIKE filter keeps, as `{"id", "name"}` entries, in table order. */
  function MatchingArtists(artists: seq<Artist>, term: string): (r: seq<Summary>)
    ensures forall a :: a in artists && NameMatches(a.name, term) ==> ArtistSummaryOf(a) in r
    ensures forall x :: x in r ==> NameMatches(x.name, term) && exists a :: a in artists && ArtistSummaryOf(a) == x
    ensures |r| <= |artists|
  {
    if |artists| == 0 then []
    else
      (if NameMatches(artists[0].name, term) then [ArtistSummaryOf(artists[0])] else [])
      + MatchingArtists(artists[1..], term)
  }

  /** The ILIKE filter as a test on one venue row. */
  function VenueFilter(term: string): Venue -> bool
  {
    (v: Venue) => NameMatches(v.name, term)
  }

  /** The ILIKE filter as a test on one artist row. */
  function ArtistFilter(term: string): Artist -> bool
  {
    (a: Artist) => NameMatches(a.name, term)
  }

  /** Filtering keeps table order: filtering two runs of rows concatenates the results. */
  lemma {:induction false} MatchingVenuesAppend(a: seq<Venue>, b: seq<Venue>, term: string)
    ensures MatchingVenues(a + b, term) == MatchingVenues(a, term) + MatchingVenues(b, term)
  {
    if |a| > 0 {
      assert (a + b)[1..] == a[1..] + b;
      MatchingVenuesAppend(a[1..], b, term);
    } else {
      assert a + b == b;
    }
  }

  lemma {:induction false} MatchingArtistsAppend(a: seq<Artist>, b: seq<Artist>, term: string)
    ensures MatchingArtists(a + b, term) == MatchingArtists(a, term) + MatchingArtists(b, term)
  {
    if |a| > 0 {
      assert (a + b)[1..] == a[1..] + b;
      MatchingArtistsAppend(a[1..], b, term);
    } else {
      assert a + b == b;
    }
  }

  /** The filter yields one entry per matching row: no row is dropped or repeated. */
  lemma {:induction false} MatchingVenuesCount(venues: seq<Venue>, term: string)
    ensures |MatchingVenues(venues, term)| == |Positions(venues, VenueFilter(term))|
  {
    if |venues| > 0 {
      var n := |venues| - 1;
      var init, last := venues[..n], venues[n];
      assert venues == init + [last];
      MatchingVenuesAppend(init, [last], term);
      MatchingVenuesCount(init, term);
      assert [last][1..] == [];
      PositionsSnoc(init, last, VenueFilter(term));
    }
  }

  lemma {:induction false} MatchingArtistsCount(artists: seq<Artist>, term: string)
    ensures |MatchingArtists(artists, term)| == |Positions(artists, ArtistFilter(term))|
  {
    if |artists| > 0 {
      var n := |artists| - 1;
      var init, last := artists[..n], artists[n];
      assert artists == init + [last];
      MatchingArtistsAppend(init, [last], term);
      MatchingArtistsCount(init, term);
      assert [last][1..] == [];
      PositionsSnoc(init, last, ArtistFilter(term));
    }
  }

  /**
   * `search_venues()`: a venue's entry is in the results exactly when its name
   * matches; `count` is the number of matching venue rows and the length of
   * `data`; with no match the response is `count == 0` and carries no `data`.
   */
  function SearchVenues(st: Store, term: string): (r: SearchResponse)
    ensures r.count == |Positions(st.venues, VenueFilter(term))|
    ensures r.data.None? <==> r.count == 0
    ensures r.data.Some? ==> r.count == |r.data.value|
    ensures forall v :: v in st.venues ==>
      (NameMatches(v.name, term) <==> r.data.Some? && SummaryOf(v) in r.data.value)
    ensures r.data.Some? ==> forall x :: x in r.data.value ==> exists v :: v in st.venues && SummaryOf(v) == x
  {
    var found := MatchingVenues(st.venues, term);
    MatchingVenuesCount(st.venues, term);
    if |found| > 0 then SearchResponse(|found|, Some(found)) else SearchResponse(0, None)
  }

  /** `search_artists()`: the same contract over the artist table. */
  function SearchArtists(st: Store, term: string): (r: SearchResponse)
    ensures r.count == |Positions(st.artists, ArtistFilter(term))|
    ensures r.data.None? <==> r.count == 0
    ensures r.data.Some? ==> r.count == |r.data.value|
    ensures forall a :: a in st.artists ==>
      (NameMatches(a.name, term) <==> r.data.Some? && ArtistSummaryOf(a) in r.data.value)
    ensures r.data.Some? ==> forall x :: x in r.data.value ==> exists a :: a in st.artists && ArtistSummaryOf(a) == x
  {
    var found := MatchingArtists(st.artists, term);
    MatchingArtistsCount(st.artists, term);
    if |found| > 0 then SearchResponse(|found|, Some(found)) else SearchResponse(0, None)
  }

  /** An empty search term lists every venue, one entry per row. */
  lemma EmptyTermListsEveryVenue(st: Store)
    ensures SearchVenues(st, "").count == |st.venues|
  {
    forall v | v in st.venues ensures NameMatches(v.name, "") {
      EmptyTermMatchesAll(v.name);
    }
    AllMatchKeepsAll(st.venues, "");
  }

  /** An empty search term lists every artist, one entry per row. */
  lemma EmptyTermListsEveryArtist(st: Store)
    ensures SearchArtists(st, "").count == |st.artists|
  {
    forall a | a in st.artists ensures NameMatches(a.name, "") {
      EmptyTermMatchesAll(a.name);
    }
    AllMatchKeepsAllArtists(st.artists, "");
  }

  lemma {:induction false} AllMatchKeepsAll(venues: seq<Venue>, term: string)
    requires forall v :: v in venues ==> NameMatches(v.name, term)
    ensures |MatchingVenues(venues, term)| == |venues|
  {
    if |venues| > 0 {
      assert forall v :: v in venues[1..] ==> v in venues;
      AllMatchKeepsAll(venues[1..], term);
    }
  }

  lemma {:induction false} AllMatchKeepsAllArtists(artists: seq<Artist>, term: string)
    requires forall a :: a in artists ==> NameMatches(a.name, term)
    ensures |MatchingArtists(artists, term)| == |artists|
  {
    if |artists| > 0 {
      assert forall a :: a in artists[1..] ==> a in artists;
      AllMatchKeepsAllArtists(artists[1..], term);
    }
  }
}

=== FILE: showqueries.dfy ===
/**
 * The show queries on the `Venue` and `Artist` models (`get_upcoming_shows`,
 * `get_past_shows`, `get_shows`) and the `formatted_shows` helper they share.
 * These filter with `start_time > now` and `start_time < now`, so a show at
 * exactly `now` is in neither list; the detail handlers' `<` / else split puts
 * it among the upcoming shows. Both are related here.
 */
module ShowQueries {
  import opened Tables
  import opened Records
  import opened Partition
  import opened Detail

  /** A row of the inner join of shows with the artist and venue tables. */
  datatype JoinRow = JoinRow(artist: Artist, show: Show, venue: Venue)

  /** Both of a show's foreign keys resolve. */
  predicate Joinable(st: Store, s: Show)
  {
    HasArtist(st, s.artistId) && HasVenue(st, s.venueId)
  }

  /** The row a joinable show contributes to the join: the show with its artist and its venue. */
  function RowOf(st: Store, s: Show): JoinRow
    requires Joinable(st, s)
  {
    JoinRow(GetArtist(st, s.artistId).value, s, GetVenue(st, s.venueId).value)
  }

  /**
   * `query(Artist, Show).join(Show).join(Venue)` restricted to `shows`: each
   * show with its artist and its venue, in the shows' order. A show missing
   * either partner yields no row.
   */
  function Join(st: Store, shows: seq<Show>): (r: seq<JoinRow>)
    ensures |r| <= |shows|
  {
    if |shows| == 0 then []
    else
      var s := shows[|shows| - 1];
      Join(st, shows[..|shows| - 1])
      + (if Joinable(st, s) then [RowOf(st, s)] else [])
  }

  lemma JoinSnoc(st: Store, xs: seq<Show>, s: Show)
    requires Joinable(st, s)
    ensures Join(st, xs + [s]) == Join(st, xs) + [RowOf(st, s)]
  {
    assert (xs + [s])[..|xs|] == xs;
  }

  /** Every row of the join is a joinable show from the input, with that show's artist and venue. */
  lemma {:induction false} JoinRowsFrom(st: Store, shows: seq<Show>)
    ensures forall row :: row in Join(st, shows) ==>
      row.show in shows && Joinable(st, row.show) && row == RowOf(st, row.show)
  {
    if |shows| > 0 {
      var init, last := shows[..|shows| - 1], shows[|shows| - 1];
      JoinRowsFrom(st, init);
      assert forall s :: s in init ==> s in shows;
    }
  }

  /** When every show's keys resolve the join drops nothing: one row per show, in order. */
  lemma {:induction false} JoinKeepsEveryShow(st: Store, shows: seq<Show>)
    requires forall s :: s in shows ==> Joinable(st, s)
    ensures |Join(st, shows)| == |shows|
    ensures forall i :: 0 <= i < |shows| ==> Join(st, shows)[i] == RowOf(st, shows[i])
  {
    if |shows| > 0 {
      var init, last := shows[..|shows| - 1], shows[|shows| - 1];
      assert forall s :: s in init ==> s in shows;
      JoinKeepsEveryShow(st, init);
      assert shows == init + [last];
      JoinSnoc(st, init, last);
    }
  }

  /** One `event` of `formatted_shows`. */
  function FormatShow(row: JoinRow, venueImg: bool): Event
  {
    Event(row.artist.id, row.artist.name, row.show.startTime,
          if venueImg then VenueImage(row.venue.imageLink) else ArtistImage(row.artist.imageLink))
  }

  /**
   * `formatted_shows(shows, venue_img)`: one event per row, in row order,
   * carrying the row's artist id and name and the show's start time, and
   * exactly one image link: the venue's when `venueImg`, the artist's otherwise.
   */
  function FormattedShows(rows: seq<JoinRow>, venueImg: bool): (r: seq<Event>)
    ensures |r| == |rows|
    ensures forall i :: 0 <= i < |rows| ==>
      && r[i].artistId == rows[i].artist.id
      && r[i].artistName == rows[i].artist.name
      && r[i].startTime == rows[i].show.startTime
    ensures forall i :: 0 <= i < |rows| ==>
      && (r[i].image.VenueImage? <==> venueImg)
      && r[i].image.link == (if venueImg then rows[i].venue.imageLink else rows[i].artist.imageLink)
  {
    if |rows| == 0 then []
    else [FormatShow(rows[0], venueImg)] + FormattedShows(rows[1..], venueImg)
  }

  /** Formatting is a map: formatting two runs of rows concatenates their events. */
  lemma {:induction false} FormattedShowsAppend(a: seq<JoinRow>, b: seq<JoinRow>, venueImg: bool)
    ensures FormattedShows(a + b, venueImg) == FormattedShows(a, venueImg) + FormattedShows(b, venueImg)
  {
    if |a| > 0 {
      assert (a + b)[1..] == a[1..] + b;
      FormattedShowsAppend(a[1..], b, venueImg);
    } else {
      assert a + b == b;
    }
  }

  // ---------------------------------------------------------------------------
  // Venue
  // ---------------------------------------------------------------------------

  /** `Venue.get_shows()`: the shows booked at the venue, in table order. */
  function VenueShows(st: Store, v: Venue): (r: seq<Show>)
    ensures forall s :: s in r <==> s in st.shows && s.venueId == v.id
  {
    ShowsAtVenue(st, v.id)
  }

  /** `Venue.get_upcoming_shows()`: the venue's shows starting strictly after `now`, with the artist's image. */
  function VenueUpcomingShows(st: Store, v: Venue, now: Timestamp): (r: seq<Event>)
    ensures |r| <= |After(VenueShows(st, v), now)|
    ensures forall e :: e in r ==> e.startTime > now && e.image.ArtistImage?
  {
    JoinRowsFrom(st, After(VenueShows(st, v), now));
    FormattedShows(Join(st, After(VenueShows(st, v), now)), false)
  }

  /** `Venue.get_past_shows()`: the venue's shows starting strictly before `now`, with the artist's image. */
  function VenuePastShows(st: Store, v: Venue, now: Timestamp): (r: seq<Event>)
    ensures |r| <= |Before(VenueShows(st, v), now)|
    ensures forall e :: e in r ==> e.startTime < now && e.image.ArtistImage?
  {
    JoinRowsFrom(st, Before(VenueShows(st, v), now));
    FormattedShows(Join(st, Before(VenueShows(st, v), now)), false)
  }

  /** With every key resolving, formatting the joined shows yields the venue page's entries. */
  lemma VenueFormatMatchesPage(st: Store, shows: seq<Show>)
    requires forall s :: s in shows ==> Joinable(st, s)
    ensures FormattedShows(Join(st, shows), false) == VenuePageEvents(st, shows)
  {
    JoinKeepsEveryShow(st, shows);
    var rows := Join(st, shows);
    forall i | 0 <= i < |shows|
      ensures FormattedShows(rows, false)[i] == VenuePageEvents(st, shows)[i]
    {
      assert Joinable(st, shows[i]);
      assert rows[i] == RowOf(st, shows[i]);
    }
  }

  /**
   * In a store satisfying its constraints the venue queries list exactly the
   * filtered shows, one event per show in order, each the same entry the venue
   * page shows for it.
   */
  lemma VenueQueriesExact(st: Store, v: Venue, now: Timestamp)
    requires WellFormed(st)
    ensures VenuePastShows(st, v, now) == VenuePageEvents(st, Before(VenueShows(st, v), now))
    ensures VenueUpcomingShows(st, v, now) == VenuePageEvents(st, After(VenueShows(st, v), now))
  {
    VenueFormatMatchesPage(st, Before(VenueShows(st, v), now));
    VenueFormatMatchesPage(st, After(VenueShows(st, v), now));
  }

  /**
   * The venue page and the venue model agree on past shows; on upcoming shows
   * they agree exactly when no show of the venue starts at `now`.
   */
  lemma VenueVariantsAgree(st: Store, v: Venue, now: Timestamp)
    requires WellFormed(st)
    ensures VenuePastShows(st, v, now) == VenuePageEvents(st, Before(VenueShows(st, v), now))
    ensures VenueUpcomingShows(st, v, now) == VenuePageEvents(st, NotBefore(VenueShows(st, v), now))
        <==> forall s :: s in VenueShows(st, v) ==> s.startTime != now
  {
    var all := VenueShows(st, v);
    VenueQueriesExact(st, v, now);
    UpcomingVariants(all, now);
    StrictSplitSizes(all, now);
    if exists s :: s in all && s.startTime == now {
      var s :| s in all && s.startTime == now;
      assert s in AtInstant(all, now);
    }
  }

  /**
   * The venue model's past and upcoming lists together hold at most the venue's
   * shows, and all of them exactly when none starts at `now`.
   */
  lemma VenueQueryCounts(st: Store, v: Venue, now: Timestamp)
    requires WellFormed(st)
    ensures |VenuePastShows(st, v, now)| + |VenueUpcomingShows(st, v, now)| <= |VenueShows(st, v)|
    ensures |VenuePastShows(st, v, now)| + |VenueUpcomingShows(st, v, now)| == |VenueShows(st, v)|
        <==> forall s :: s in VenueShows(st, v) ==> s.startTime != now
  {
    VenueQueriesExact(st, v, now);
    StrictSplitCoverage(VenueShows(st, v), now);
  }

  // ---------------------------------------------------------------------------
  // Artist
  // ---------------------------------------------------------------------------

  /** `Artist.get_shows()`: the artist's shows, in table order. */
  function ArtistShows(st: Store, a: Artist): (r: seq<Show>)
    ensures forall s :: s in r <==> s in st.shows && s.artistId == a.id
  {
    ShowsOfArtist(st, a.id)
  }

  /** `Artist.get_upcoming_shows()`: the artist's shows starting strictly after `now`, with the venue's image. */
  function ArtistUpcomingShows(st: Store, a: Artist, now: Timestamp): (r: seq<Event>)
    ensures |r| <= |After(ArtistShows(st, a), now)|
    ensures forall e :: e in r ==> e.startTime > now && e.image.VenueImage?
  {
    JoinRowsFrom(st, After(ArtistShows(st, a), now));
    FormattedShows(Join(st, After(ArtistShows(st, a), now)), true)
  }

  /** `Artist.get_past_shows()`: the artist's shows starting strictly before `now`, with the venue's image. */
  function ArtistPastShows(st: Store, a: Artist, now: Timestamp): (r: seq<Event>)
    ensures |r| <= |Before(ArtistShows(st, a), now)|
    ensures forall e :: e in r ==> e.startTime < now && e.image.VenueImage?
  {
    JoinRowsFrom(st, Before(ArtistShows(st, a), now));
    FormattedShows(Join(st, Before(ArtistShows(st, a), now)), true)
  }

  /** With every key resolving to artist `a`, formatting the joined shows yields `a`'s page entries. */
  lemma ArtistFormatMatchesPage(st: Store, a: Artist, shows: seq<Show>)
    requires forall s :: s in shows ==> Joinable(st, s) && GetArtist(st, s.artistId) == Some(a)
    ensures FormattedShows(Join(st, shows), true) == ArtistPageEvents(st, a, shows)
  {
    JoinKeepsEveryShow(st, shows);
    var rows := Join(st, shows);
    forall i | 0 <= i < |shows|
      ensures FormattedShows(rows, true)[i] == ArtistPageEvents(st, a, shows)[i]
    {
      assert Joinable(st, shows[i]) && GetArtist(st, shows[i].artistId) == Some(a);
      assert rows[i] == RowOf(st, shows[i]);
    }
  }

  /**
   * For an artist row of a store satisfying its constraints the artist queries
   * list exactly the filtered shows, each the entry the artist page shows for it.
   */
  lemma ArtistQueriesExact(st: Store, a: Artist, now: Timestamp)
    requires WellFormed(st)
    requires a in st.artists
    ensures ArtistPastShows(st, a, now) == ArtistPageEvents(st, a, Before(ArtistShows(st, a), now))
    ensures ArtistUpcomingShows(st, a, now) == ArtistPageEvents(st, a, After(ArtistShows(st, a), now))
  {
    FindUnique(st.artists, ArtistKey, a);
    ArtistFormatMatchesPage(st, a, Before(ArtistShows(st, a), now));
    ArtistFormatMatchesPage(st, a, After(ArtistShows(st, a), now));
  }

  /** The artist page and the artist model agree on past shows, and on upcoming ones iff none starts at `now`. */
  lemma ArtistVariantsAgree(st: Store, a: Artist, now: Timestamp)
    requires WellFormed(st)
    requires a in st.artists
    ensures ArtistPastShows(st, a, now) == ArtistPageEvents(st, a, Before(ArtistShows(st, a), now))
    ensures ArtistUpcomingShows(st, a, now) == ArtistPageEvents(st, a, NotBefore(ArtistShows(st, a), now))
        <==> forall s :: s in ArtistShows(st, a) ==> s.startTime != now
  {
    var all := ArtistShows(st, a);
    ArtistQueriesExact(st, a, now);
    UpcomingVariants(all, now);
    StrictSplitSizes(all, now);
    if exists s :: s in all && s.startTime == now {
      var s :| s in all && s.startTime == now;
      assert s in AtInstant(all, now);
    }
  }

  /** The artist model's two lists hold at most the artist's shows, all of them iff none starts at `now`. */
  lemma ArtistQueryCounts(st: Store, a: Artist, now: Timestamp)
    requires WellFormed(st)
    requires a in st.artists
    ensures |ArtistPastShows(st, a, now)| + |ArtistUpcomingShows(st, a, now)| <= |ArtistShows(st, a)|
    ensures |ArtistPastShows(st, a, now)| + |ArtistUpcomingShows(st, a, now)| == |ArtistShows(st, a)|
        <==> forall s :: s in ArtistShows(st, a) ==> s.startTime != now
  {
    ArtistQueriesExact(st, a, now);
    StrictSplitCoverage(ArtistShows(st, a), now);
  }
}

=== FILE: tables.dfy ===
/**
 * Generic operations on a database table, modelled as the sequence of its rows
 * in the order a full scan yields them. Every operation is parameterised by a
 * key function that picks the column being compared (a primary key such as
 * `id`, or a foreign key such as `venue_id`).
 */
module Tables {

  datatype Option<+T> = None | Some(value: T)

  /** The set of values a column takes over the table. */
  function Keys<T(==,!new)>(rows: seq<T>, key: T -> int): set<int>
  {
    set x | x in rows :: key(x)
  }

  /** No two rows share a value in the given column (a primary-key constraint). */
  predicate UniqueKeys<T(==,!new)>(rows: seq<T>, key: T -> int)
  {
    forall i, j :: 0 <= i < j < |rows| ==> key(rows[i]) != key(rows[j])
  }

  /** The rows whose column equals `id`, in table order: `filter_by(col=id)`. */
  function Select<T(==,!new)>(rows: seq<T>, key: T -> int, id: int): (r: seq<T>)
    ensures forall x :: x in r <==> x in rows && key(x) == id
  {
    if |rows| == 0 then []
    else
      var last := rows[|rows| - 1];
      Select(rows[..|rows| - 1], key, id) + (if key(last) == id then [last] else [])
  }

  /** The rows whose column differs from `id`, in table order. */
  function Reject<T(==,!new)>(rows: seq<T>, key: T -> int, id: int): (r: seq<T>)
    ensures forall x :: x in r <==> x in rows && key(x) != id
  {
    if |rows| == 0 then []
    else
      var last := rows[|rows| - 1];
      Reject(rows[..|rows| - 1], key, id) + (if key(last) != id then [last] else [])
  }

  /** The first row whose column equals `id`: `query.get(id)` on a primary key. */
  function Find<T(==,!new)>(rows: seq<T>, key: T -> int, id: int): (r: Option<T>)
    ensures r.Some? ==> r.value in rows && key(r.value) == id
    ensures r.None? ==> forall x :: x in rows ==> key(x) != id
  {
    if |rows| == 0 then None
    else if key(rows[0]) == id then Some(rows[0])
    else Find(rows[1..], key, id)
  }

  /** Every row whose column equals `id` overwritten by `x`; the others kept in place. */
  function Replace<T(==,!new)>(rows: seq<T>, key: T -> int, id: int, x: T): (r: seq<T>)
    ensures |r| == |rows|
    ensures forall i :: 0 <= i < |rows| && key(rows[i]) == id ==> r[i] == x
    ensures forall i :: 0 <= i < |rows| && key(rows[i]) != id ==> r[i] == rows[i]
  {
    if |rows| == 0 then []
    else [if key(rows[0]) == id then x else rows[0]] + Replace(rows[1..], key, id, x)
  }

  /** The positions, in scan order, of the rows `keep` accepts. */
  function Positions<T>(rows: seq<T>, keep: T -> bool): set<int>
  {
    set i | 0 <= i < |rows| && keep(rows[i])
  }

  /** Appending a row adds its position exactly when `keep` accepts it. */
  lemma PositionsSnoc<T>(rows: seq<T>, x: T, keep: T -> bool)
    ensures |rows| !in Positions(rows, keep)
    ensures Positions(rows + [x], keep) == Positions(rows, keep) + (if keep(x) then {|rows|} else {})
  {
    var ext := if keep(x) then {|rows|} else {};
    forall i ensures i in Positions(rows + [x], keep) <==> i in Positions(rows, keep) + ext {
      if 0 <= i < |rows| {
        assert (rows + [x])[i] == rows[i];
      }
    }
  }

  /** A prefix grown by one row is the old prefix followed by that row. */
  lemma PrefixSnoc<T>(rows: seq<T>, i: int)
    requires 0 <= i < |rows|
    ensures rows[..i + 1] == rows[..i] + [rows[i]]
  {
  }

  /** A non-empty sequence contains its first element. */
  lemma HeadIsElement<T>(s: seq<T>)
    requires |s| > 0
    ensures s[0] in s
  {
  }

  /** Under a primary-key constraint the row `Find` returns is THE row with that key. */
  lemma FindUnique<T(!new)>(rows: seq<T>, key: T -> int, x: T)
    requires UniqueKeys(rows, key)
    requires x in rows
    ensures Find(rows, key, key(x)) == Some(x)
  {
    var k :| 0 <= k < |rows| && rows[k] == x;
    FindIndex(rows, key, k);
  }

  lemma {:induction false} FindIndex<T(!new)>(rows: seq<T>, key: T -> int, k: int)
    requires UniqueKeys(rows, key)
    requires 0 <= k < |rows|
    ensures Find(rows, key, key(rows[k])) == Some(rows[k])
  {
    if k > 0 {
      assert key(rows[0]) != key(rows[k]);
      assert rows[1..][k - 1] == rows[k];
      FindIndex(rows[1..], key, k - 1);
    }
  }

  /**
   * Select and Reject split a table in two: by their contracts each row lands in
   * exactly one of them, and their sizes add up to the table's.
   */
  lemma {:induction false} SelectRejectSizes<T(!new)>(rows: seq<T>, key: T -> int, id: int)
    ensures |Select(rows, key, id)| + |Reject(rows, key, id)| == |rows|
  {
    if |rows| > 0 {
      SelectRejectSizes(rows[..|rows| - 1], key, id);
    }
  }

  /** Select keeps table order: selecting from two consecutive runs concatenates the selections. */
  lemma {:induction false} SelectAppend<T(!new)>(a: seq<T>, b: seq<T>, key: T -> int, id: int)
    ensures Select(a + b, key, id) == Select(a, key, id) + Select(b, key, id)
  {
    if |b| > 0 {
      var bInit := b[..|b| - 1];
      assert (a + b)[..|a + b| - 1] == a + bInit;
      SelectAppend(a, bInit, key, id);
    } else {
      assert a + b == a;
    }
  }

  /** Dropping rows never breaks a primary-key constraint, whatever column the drop compares. */
  lemma {:induction false} RejectKeepsUnique<T(!new)>(rows: seq<T>, pk: T -> int, key: T -> int, id: int)
    requires UniqueKeys(rows, pk)
    ensures UniqueKeys(Reject(rows, key, id), pk)
  {
    if |rows| > 0 {
      var init := rows[..|rows| - 1];
      var last := rows[|rows| - 1];
      assert UniqueKeys(init, pk) by {
        forall i, j | 0 <= i < j < |init| ensures pk(init[i]) != pk(init[j]) {
          assert init[i] == rows[i] && init[j] == rows[j];
        }
      }
      RejectKeepsUnique(init, pk, key, id);
      var r0 := Reject(init, key, id);
      forall y | y in r0 ensures pk(y) != pk(last) {
        var j :| 0 <= j < |init| && init[j] == y;
        assert rows[j] == y;
      }
    }
  }

  /** Overwriting rows with a value carrying the same primary key keeps the constraint. */
  lemma ReplaceKeepsUnique<T(!new)>(rows: seq<T>, pk: T -> int, id: int, x: T)
    requires UniqueKeys(rows, pk)
    requires pk(x) == id
    ensures UniqueKeys(Replace(rows, pk, id, x), pk)
    ensures Keys(Replace(rows, pk, id, x), pk) == Keys(rows, pk)
  {
    var r := Replace(rows, pk, id, x);
    forall i | 0 <= i < |rows| ensures pk(r[i]) == pk(rows[i]) {
    }
    forall k | k in Keys(rows, pk) ensures k in Keys(r, pk) {
      var y :| y in rows && pk(y) == k;
      var i :| 0 <= i < |rows| && rows[i] == y;
      assert r[i] in r;
    }
    forall k | k in Keys(r, pk) ensures k in Keys(rows, pk) {
      var y :| y in r && pk(y) == k;
      var i :| 0 <= i < |r| && r[i] == y;
      assert rows[i] in rows;
    }
  }

  /** A lookup succeeds exactly when some row carries the key. */
  lemma FindSomeIffKey<T(!new)>(rows: seq<T>, key: T -> int, id: int)
    ensures Find(rows, key, id).Some? <==> id in Keys(rows, key)
  {
    if id in Keys(rows, key) {
      var x :| x in rows && key(x) == id;
    }
  }

  /** After overwriting the rows keyed `id` with `x`, looking `id` up yields `x`. */
  lemma {:induction false} FindReplaced<T(!new)>(rows: seq<T>, key: T -> int, id: int, x: T)
    requires Find(rows, key, id).Some?
    requires key(x) == id
    ensures Find(Replace(rows, key, id, x), key, id) == Some(x)
  {
    if key(rows[0]) != id {
      FindReplaced(rows[1..], key, id, x);
    }
  }

  /** Overwriting the rows keyed `id` does not disturb the lookup of any other key. */
  lemma {:induction false} FindReplaceOther<T(!new)>(rows: seq<T>, key: T -> int, id: int, x: T, k: int)
    requires key(x) == id
    requires k != id
    ensures Find(Replace(rows, key, id, x), key, k) == Find(rows, key, k)
  {
    if |rows| > 0 {
      FindReplaceOther(rows[1..], key, id, x, k);
    }
  }

  /** Overwriting with a row that keeps its key twice is the same as once. */
  lemma {:induction false} ReplaceIdempotent<T(!new)>(rows: seq<T>, key: T -> int, id: int, x: T)
    requires key(x) == id
    ensures Replace(Replace(rows, key, id, x), key, id, x) == Replace(rows, key, id, x)
  {
    if |rows| > 0 {
      ReplaceIdempotent(rows[1..], key, id, x);
    }
  }

  /** Under a primary-key constraint at most one row carries a key, and exactly one when some row does. */
  lemma {:induction false} SelectUniqueSize<T(!new)>(rows: seq<T>, key: T -> int, id: int)
    requires UniqueKeys(rows, key)
    ensures |Select(rows, key, id)| == (if id in Keys(rows, key) then 1 else 0)
  {
    if |rows| == 0 {
    } else {
      var init, last := rows[..|rows| - 1], rows[|rows| - 1];
      assert UniqueKeys(init, key) by {
        forall i, j | 0 <= i < j < |init| ensures key(init[i]) != key(init[j]) {
          assert init[i] == rows[i] && init[j] == rows[j];
        }
      }
      SelectUniqueSize(init, key, id);
      assert rows == init + [last];
      if key(last) == id {
        forall y | y in init ensures key(y) != id {
          var j :| 0 <= j < |init| && init[j] == y;
          assert rows[j] == y;
        }
        assert id !in Keys(init, key);
      } else {
        assert Keys(rows, key) == Keys(init, key) + {key(last)};
      }
    }
  }

  /** After dropping the rows keyed `id`, selecting `id` finds nothing. */
  lemma SelectAfterReject<T(!new)>(rows: seq<T>, key: T -> int, id: int)
    ensures Select(Reject(rows, key, id), key, id) == []
  {
    var r := Select(Reject(rows, key, id), key, id);
    if |r| > 0 {
      HeadIsElement(r);
      assert false;
    }
  }
}
